=== FILE: README.md ===
# Task dashboard with labels — a Dafny model

The system is a task manager. A Next.js dashboard lists, creates, edits,
completes and deletes tasks, and manages coloured labels. A FastAPI backend
stores tasks and labels in MongoDB through Beanie. This project models the
core of both halves as pure Dafny functions over immutable data and proves
what each half promises.

- `wrappers.dfy`, `seqs.dfy`: `Option`/`Result` and an order-keeping
  `Filter` over sequences, with its lemmas.
- `text.dfy`: the label key `trim().toLowerCase()` on the client and
  `strip().lower()` on the server. Each runtime's whitespace set is given
  exactly, and the two keys are shown to agree except on the characters
  where the sets differ. This file also holds decimal rendering of numbers.
- `domain.dfy`: the client's `Task`, `Label` and `TaskFormData` records
  and the priority levels.
- `api.ts` → `api.dfy`: the `request` error and 204 rules, the
  `normalizeTask` and `normalizeLabel` defaulting, the create and update
  payloads, and the label query strings.
- `TaskForm.tsx` → `task_form.dfy`: the initial state, label toggling and
  submit validation.
- `LabelsManagerModal.tsx` → `labels_manager.dfy`: the duplicate and
  validity checks of the add form, the rename rows and the inline editor.
- `page.tsx` → `dashboard.dfy`: every handler as a transition from a
  session and the outcome of its remote call to the next session.
- `models/task.py` → `task_model.dfy`: the request schemas, what
  validation accepts, the stored document, the read-back that validates
  it, the two `model_dump` forms and the `_id` → `id` renaming.
- `label_schema.py` → `label_schema.dfy`: the label body validators.
- `store.dfy`, `listing.dfy`: the database as two maps keyed by ObjectId
  text, and the sorted, limited list query.
- `labels_routes.py` → `labels_routes.dfy` and `tasks_routes.py` →
  `tasks_routes.dfy`: each route as a function from the database and the
  request to the database afterwards and the HTTP answer. FastAPI
  validates the path and body first and answers 422; query parameters are taken as already typed. A document that no
  longer validates makes a read fail with 500.

Parameters stand in for the clock, the ObjectId generator and the outcome
of each remote call. No I/O is modelled.

## Model

| member | source | states |
|---|---|---|
| Seqs.FilterAppend | frontend/src/app/dashboard/page.tsx:37-41 | filtering a concatenation filters each part and keeps their order |
| Seqs.FilterCounts | frontend/src/app/dashboard/page.tsx:90 | filtering keeps each passing element exactly as often as it occurs, and no other element |
| Seqs.FilterKeepsNoDuplicates | frontend/src/app/dashboard/page.tsx:159-172 | removing elements from a list without repeats leaves it without repeats |
| Text.Trim | backend/app/routes/labels_routes.py:10-11 | the trimmed text has no leading or trailing whitespace and is no longer than the input |
| Text.TrimOfPadded | frontend/src/components/labels/LabelsManagerModal.tsx:43 | trimming a stripped text padded with whitespace on both sides gives back exactly that text |
| Text.TrimIdempotent | frontend/src/components/labels/LabelsManagerModal.tsx:43 | trimming twice is the same as trimming once |
| Text.TrimLowerCommute | frontend/src/components/labels/LabelsManagerModal.tsx:43 | trimming and lower-casing can be done in either order |
| Text.Lower | backend/app/routes/labels_routes.py:11 | lower-casing keeps the length, maps each character on its own, and leaves no capital letter |
| Text.NormalizeIdempotent | backend/app/routes/labels_routes.py:10-11 | the key of a key is the key itself |
| Text.NormalizeIgnoresPaddingAndCase | backend/app/routes/labels_routes.py:10-11 | surrounding whitespace and letter case never change a name's key |
| Text.NormalizeOfTrim | frontend/src/components/labels/LabelsManagerModal.tsx:48 | the key of the trimmed name the add form sends equals the key of the typed name |
| Text.ClientServerAgree | frontend/src/app/dashboard/page.tsx:138 | the client key and the server key are equal for any name without the characters only one runtime treats as whitespace |
| Text.ClientServerDiffer | backend/app/routes/labels_routes.py:10-11 | the two keys really differ: "a" followed by U+001F keeps the separator on the client and loses it on the server |
| Text.NatToStringRoundTrip | frontend/src/lib/api.ts:19 | reading back the decimal text of a status gives the status |
| Domain.ParsePriority | backend/app/models/task.py:11-15 | exactly "high", "medium" and "low" name a priority |
| Domain.PriorityRoundTrip | backend/app/models/task.py:11-15 | a priority's text parses back to it, and a parsed text is that priority's text |
| Domain.KeySet | frontend/src/components/labels/LabelsManagerModal.tsx:36 | the set holds every label's key and nothing else |
| Api.Request | frontend/src/lib/api.ts:7-24 | a status outside 200-299 rejects with "<status> <reason>"; 204 resolves with no payload; other successes resolve with the parsed body |
| Api.ErrorReasonPreference | frontend/src/lib/api.ts:18 | the reason is a non-empty `detail` if there is one, then a non-empty status text, then "Request failed" |
| Api.RejectionCarriesStatus | frontend/src/lib/api.ts:19 | the status can always be read back from the leading digits of a rejection message |
| Api.IdText | frontend/src/lib/api.ts:27-29 | the id is `id` when present and not null, otherwise `_id`; a missing `_id` gives the text "undefined" and a null one "null" |
| Api.NormalizeTask | frontend/src/lib/api.ts:26-40 | a present user, title, priority or deadline is kept and a missing one gets its default ("" or medium priority); description and timestamps pass through; `completed` follows JavaScript truthiness; an array `label_ids` is kept and anything else becomes empty |
| Api.NormalizeTaskRoundTrip | frontend/src/lib/api.ts:26-40 | a complete task record survives normalization unchanged, whether its id arrives as `id` or `_id` |
| Api.NormalizeLabel | frontend/src/lib/api.ts:77-87 | a label without a stored key gets the client key of its name |
| Api.NormalizeLabelRoundTrip | frontend/src/lib/api.ts:77-87 | a complete label survives normalization, and so does a label whose key was dropped if the key matched its name |
| Api.CreateTaskBody | frontend/src/lib/api.ts:48-55 | the create payload has exactly the five members; a missing description is sent as null and the label ids are always sent |
| Api.UpdateTaskBody | frontend/src/lib/api.ts:60-67 | the update payload holds a member exactly when the caller gave it, with the given value |
| Api.QueryValue | frontend/src/lib/api.ts:95 | the value the server reads for a parameter is the last one the query carries under that key, and no value is read when the query has none |
| Api.LabelQueryRoundTrip | frontend/src/lib/api.ts:94-104 | the server reads back the name the create call sent and any non-empty name or colour the update call sent; an empty colour or name is not sent |
| TaskForm.Initial | frontend/src/components/tasks/TaskForm.tsx:21-26 | the form starts with no errors; each of title, description, priority, deadline and label ids is the given default, or "", medium or no labels when none is given |
| TaskForm.InitialWithoutDefaults | frontend/src/components/tasks/TaskForm.tsx:21-26 | without defaults the form is empty, with medium priority and no labels |
| TaskForm.ToggleLabel | frontend/src/components/tasks/TaskForm.tsx:28-30 | toggling a selected id removes every copy of it and keeps every other id as often as it occurred; an unselected id is appended |
| TaskForm.ToggleRemovesInPlace | frontend/src/components/tasks/TaskForm.tsx:29 | unselecting an id takes it out where it stood and leaves the other ids in their order |
| TaskForm.ToggleKeepsNoDuplicates | frontend/src/components/tasks/TaskForm.tsx:28-30 | toggling never makes a label appear twice |
| TaskForm.ToggleTwice | frontend/src/components/tasks/TaskForm.tsx:28-30 | toggling twice restores the selection, and restores the list itself when the id was not selected |
| TaskForm.Submit | frontend/src/components/tasks/TaskForm.tsx:32-40 | a blank title or an empty deadline each raise their own error; the form submits exactly when neither is raised, and then sends the trimmed title |
| TaskForm.SubmittedDataIsClean | frontend/src/components/tasks/TaskForm.tsx:32-40 | submitted data has a non-empty trimmed title and a deadline |
| TaskForm.BlankFormReportsBoth | frontend/src/components/tasks/TaskForm.tsx:32-40 | a blank form reports both errors together and submits nothing |
| LabelsManager.AddLabel | frontend/src/components/labels/LabelsManagerModal.tsx:36-51 | the add form calls create exactly when the key is non-empty and unused, with the trimmed name, and then clears; otherwise the form is kept |
| LabelsManager.CanCreateIff | frontend/src/components/labels/LabelsManagerModal.tsx:36-44 | a name is a duplicate exactly when some label has its key, and can be created exactly when its key is non-empty and not a duplicate |
| LabelsManager.AddKeepsKeysDistinct | frontend/src/components/labels/LabelsManagerModal.tsx:46-51 | adding the created label keeps the label keys pairwise distinct |
| LabelsManager.WorkThenWork | frontend/src/components/labels/LabelsManagerModal.tsx:36-44 | once "work" exists, neither "work" nor "work " can be created |
| LabelsManager.SetValue | frontend/src/components/labels/LabelsManagerModal.tsx:73 | typing in a row marks only that row dirty, with the validity of the new text |
| LabelsManager.PressUpdate | frontend/src/components/labels/LabelsManagerModal.tsx:70-72 | Update calls rename exactly when the row is dirty and valid, and then marks it clean; otherwise nothing changes |
| LabelsManager.UntouchedRowIsInert | frontend/src/components/labels/LabelsManagerModal.tsx:70-72 | an untouched row never sends a rename |
| LabelsManager.RenameToOwnName | frontend/src/components/labels/LabelsManagerModal.tsx:72 | renaming a label to its own name, in any case and with any padding, is valid |
| LabelsManager.RenameKeepsKeysDistinct | frontend/src/components/labels/LabelsManagerModal.tsx:72 | a valid rename keeps the label keys pairwise distinct |
| LabelsManager.InlineSave | frontend/src/components/labels/LabelsManagerModal.tsx:173-186 | the inline editor saves exactly when it is dirty and valid, and then becomes clean |
| LabelsManager.InlineAgreesWithRow | frontend/src/components/labels/LabelsManagerModal.tsx:173-177 | the inline editor and the row accept the same names |
| Dashboard.FailureText | frontend/src/app/dashboard/page.tsx:114 | the toast shows the error's message, or the handler's fallback text when the message is empty |
| Dashboard.Report | frontend/src/components/ui/Toast.tsx:13 | a failure sets the error and queues an error toast, and changes nothing else |
| Dashboard.Load | frontend/src/app/dashboard/page.tsx:100-123 | a successful load replaces tasks and labels and nothing else; a failed load only reports |
| Dashboard.FilteredTasks | frontend/src/app/dashboard/page.tsx:37-41 | the view holds exactly the tasks the filter shows; "all" shows the list unchanged |
| Dashboard.FilteredKeepsOrder | frontend/src/app/dashboard/page.tsx:37-41 | filtering keeps the list's order |
| Dashboard.ViewsPartition | frontend/src/app/dashboard/page.tsx:37-41 | every task is in exactly one of the active and completed views |
| Dashboard.FilteredIdempotent | frontend/src/app/dashboard/page.tsx:37-41 | filtering a view again changes nothing |
| Dashboard.SetFilter | frontend/src/components/layout/Sidebar.tsx:8 | choosing a view changes only the view |
| Dashboard.Flip | frontend/src/app/dashboard/page.tsx:45-46 | the flags of exactly the tasks with the id are flipped, and nothing else changes |
| Dashboard.Find | frontend/src/app/dashboard/page.tsx:48 | the first task with the id is found, or none exists |
| Dashboard.TogglePatchSendsNewFlag | frontend/src/app/dashboard/page.tsx:43-50 | the request sends only `completed`, with the task's new flag; with no such task it sends an empty body |
| Dashboard.ToggleComplete | frontend/src/app/dashboard/page.tsx:43-54 | success keeps the flipped flag; failure restores the snapshot and shows "Failed to update task" |
| Dashboard.ToggleTwice | frontend/src/app/dashboard/page.tsx:43-54 | two successful toggles restore the session |
| Dashboard.CreateTask | frontend/src/app/dashboard/page.tsx:56-67 | on success the server's task goes first, the dialog closes and a success toast is queued; a failure only reports |
| Dashboard.Overwrite | frontend/src/app/dashboard/page.tsx:73 | the tasks with the id take the form's fields and keep id, owner, flag and timestamps; the other tasks are unchanged |
| Dashboard.SaveThenReopen | frontend/src/app/dashboard/page.tsx:71-82 | after a save the edit form reopens with exactly the saved data, and saving again changes nothing |
| Dashboard.SaveOwnData | frontend/src/app/dashboard/page.tsx:71-82 | saving a task's own data leaves the list unchanged |
| Dashboard.SaveTask | frontend/src/app/dashboard/page.tsx:71-82 | the edit dialog always closes; success keeps the edit, and failure restores the snapshot and reports |
| Dashboard.AskDelete | frontend/src/app/dashboard/page.tsx:84 | asking to delete records the id and changes nothing else |
| Dashboard.ConfirmDelete | frontend/src/app/dashboard/page.tsx:85-98 | with no pending id nothing happens; otherwise success removes every task with that id and keeps every other task as often as it occurred, failure restores them, and the prompt closes |
| Dashboard.ConfirmDeleteKeepsOrder | frontend/src/app/dashboard/page.tsx:90 | the surviving tasks keep their order: deleting from a list split in two deletes from each part in place |
| Dashboard.DeleteUndoesCreate | frontend/src/app/dashboard/page.tsx:56-98 | creating a task and then deleting it restores the task list |
| Dashboard.CreateLabel | frontend/src/app/dashboard/page.tsx:126-135 | on success the server's label is appended; a failure only reports |
| Dashboard.Relabel | frontend/src/app/dashboard/page.tsx:137-139 | the labels with the id take the new name and its client key; the others are unchanged |
| Dashboard.RenameLabel | frontend/src/app/dashboard/page.tsx:136-147 | success keeps the renamed labels; failure restores the snapshot and reports |
| Dashboard.RenameKeepsKeysMatchNames | frontend/src/app/dashboard/page.tsx:136-147 | after a rename every label's key is still the key of its name |
| Dashboard.RenameKeepsKeysDistinct | frontend/src/app/dashboard/page.tsx:136-147 | a rename the manager allows keeps the label keys pairwise distinct, given that no two labels share an id |
| Dashboard.Recolor | frontend/src/app/dashboard/page.tsx:150 | the labels with the id take the new colour; everything else is unchanged |
| Dashboard.RecolorLabel | frontend/src/app/dashboard/page.tsx:148-158 | success keeps the new colour; failure restores the snapshot and reports |
| Dashboard.RecolorKeepsKeys | frontend/src/app/dashboard/page.tsx:148-158 | recolouring changes no label key |
| Dashboard.Strip | frontend/src/app/dashboard/page.tsx:163 | every task loses the id from its labels, keeps its other label ids in order, and keeps all its other fields |
| Dashboard.DeleteLabel | frontend/src/app/dashboard/page.tsx:159-172 | success removes the label and strips it from every task; failure restores both lists and reports |
| Dashboard.DeleteLabelLeavesNoTrace | frontend/src/app/dashboard/page.tsx:159-172 | after a delete no label has the id and no task refers to it, and every other label and reference survives |
| Dashboard.DeleteLabelKeepsNoDangling | frontend/src/app/dashboard/page.tsx:159-172 | if every task's labels exist before a delete, they exist after it |
| Dashboard.DeleteUndoesCreateLabel | frontend/src/app/dashboard/page.tsx:126-172 | creating a label and then deleting it restores labels and tasks |
| TaskModel.ParseDate | backend/app/models/task.py:28 | an accepted deadline is a real calendar date written in ten characters |
| TaskModel.DateTextParses | backend/app/models/task.py:28 | every calendar date's YYYY-MM-DD text parses back to it |
| TaskModel.DateParsesBack | backend/app/models/task.py:28 | an accepted deadline text is exactly the text of the date it names |
| TaskModel.OptionalMember | backend/app/models/task.py:75-82 | a missing member is unset, null is null, a readable value is that value, and anything else is rejected |
| TaskModel.ParseCreate | backend/app/models/task.py:68-73 | a create body is accepted exactly when title, priority and deadline are present and well typed and the description is text or null |
| TaskModel.ParseUpdate | backend/app/models/task.py:75-82 | an update body is accepted exactly when every member present is null or well typed, and each member is recorded as unset, null or a value |
| TaskModel.NewTask | backend/app/models/task.py:25-37 | a new task is not completed, has no labels and no owner, and both timestamps are the creation time |
| TaskModel.NewTaskDecodes | backend/app/models/task.py:25-37 | a freshly stored task reads back as the request's fields with the defaults |
| TaskModel.Decode | backend/app/models/task.py:25-37 | a stored task that reads back has a text title, a priority and a date deadline; a null title never reads back |
| TaskModel.DecodeIff | backend/app/models/task.py:25-37 | a stored task reads back exactly when every member has the type `Task` declares |
| TaskModel.DecodeWhenWellTyped | backend/app/models/task.py:25-37 | a well-typed document reads back with its members' values, no description or owner when missing or null, not completed and no labels when those are missing |
| TaskModel.DumpAsWritten | backend/app/routes/tasks_routes.py:51 | the written dump has a member exactly when the request set it, null when it was set to null and its wire form otherwise, and no other member |
| TaskModel.Dump | backend/app/routes/tasks_routes.py:50 | the intended dump carries exactly the members given a value, with their wire form |
| TaskModel.Apply | backend/app/routes/tasks_routes.py:54 | `$set` gives every dumped member its dumped value, keeps every other field, and leaves the timestamps alone |
| TaskModel.ApplyKeepsValid | backend/app/routes/tasks_routes.py:50-57 | applying a valid update to a readable task leaves it readable, with each given member changed and the others kept |
| TaskModel.NullTitleCorrupts | backend/app/routes/tasks_routes.py:51-54 | writing the dump as written with a null title leaves a document that cannot be read back |
| TaskModel.DumpsAgreeWithoutNulls | backend/app/routes/tasks_routes.py:50-51 | without explicit nulls the written and intended dumps are the same |
| TaskModel.RenameId | backend/app/models/task.py:39-51 | the output has no `_id`; its `id` is Python's `str` of the `_id` value (the ObjectId's text, "None" for null), and every other member is kept |
| TaskModel.RenameIdRoundTrip | backend/app/models/task.py:39-51 | renaming loses nothing: the `id` restores the ObjectId, and the other members are the input's |
| LabelSchema.ValidateCreate | backend/app/schemas/label_schema.py:5-8 | a body is accepted exactly when the name has 1 to 50 characters and any colour is `#` and six hexadecimal digits |
| LabelSchema.ValidateUpdate | backend/app/schemas/label_schema.py:10-13 | an update is accepted exactly when each member it gives passes the creation rule |
| LabelSchema.UpdateAgreesWithCreate | backend/app/schemas/label_schema.py:5-13 | an empty update is accepted, and an update with a name accepts exactly what creation accepts |
| LabelSchema.PresetsAreHexColors | frontend/src/components/labels/LabelsManagerModal.tsx:10-15 | every preset colour of the manager passes the server's colour pattern |
| Store.StoredId | backend/app/routes/tasks_routes.py:35 | a path id names a stored id of the same length |
| Store.StoredIdIgnoresCase | backend/app/routes/tasks_routes.py:35 | a path id names the same document in either letter case |
| Store.StoredIdOfStored | backend/app/routes/tasks_routes.py:35 | the text of a stored id names that id |
| Listing.Taken | backend/app/routes/labels_routes.py:16 | a limit of 0 returns everything; any other limit returns at most its absolute value |
| Listing.FirstExists | backend/app/routes/labels_routes.py:16 | every non-empty set of documents has one that may come first in the sort |
| Listing.SelectOrdered | backend/app/routes/tasks_routes.py:29-31 | the query returns as many distinct stored ids as the limit allows, sorted, and no document left out sorts before one returned |
| LabelsRoutes.CreateLabel | backend/app/routes/labels_routes.py:20-29 | a used key answers 409, or 500 when the label using it does not validate, and changes nothing; otherwise a bad name length answers 500; otherwise a label with the server key is stored and answered with 201 |
| LabelsRoutes.Changed | backend/app/routes/labels_routes.py:37-46 | the given name, with its new key, and the given colour replace the old ones; the owner and creation time stay |
| LabelsRoutes.UpdateLabel | backend/app/routes/labels_routes.py:32-49 | a malformed id answers 422, an unknown one 404, an unreadable label 500, and a key used by another label 409, or 500 when that label does not validate; otherwise only that label changes and 200 returns it |
| LabelsRoutes.DeleteLabel | backend/app/routes/labels_routes.py:52-58 | a malformed id answers 422 and an unknown one 404; 204 means exactly that label was removed; tasks are never touched |
| LabelsRoutes.ListLabels | backend/app/routes/labels_routes.py:14-17 | the query picks the oldest labels, 100 by default, none twice; the answer is 200 with exactly those labels unless one of them does not validate, which answers 500 |
| LabelsRoutes.StoreKeepsConsistent | backend/app/routes/labels_routes.py:10-29 | storing a label whose key is its name's key and unused by others keeps the keys distinct and matching |
| LabelsRoutes.CreateKeepsConsistent | backend/app/routes/labels_routes.py:20-29 | creation keeps every label key distinct and equal to its name's key |
| LabelsRoutes.UpdateKeepsConsistent | backend/app/routes/labels_routes.py:32-49 | updates keep every label key distinct and equal to its name's key |
| LabelsRoutes.DeleteKeepsConsistent | backend/app/routes/labels_routes.py:52-58 | deletion keeps every label key distinct and equal to its name's key |
| LabelsRoutes.RenameToOwnKey | backend/app/routes/labels_routes.py:38-42 | renaming a label to a name with its own key is not a conflict |
| LabelsRoutes.WorkThenWork | backend/app/routes/labels_routes.py:20-29 | creating "Work" succeeds with key "work", and creating "work" afterwards answers 409 |
| TasksRoutes.CreateTask | backend/app/routes/tasks_routes.py:13-25 | an invalid body answers 422 and changes nothing; otherwise the task is stored under the new id and answered with 201, not completed and with no labels |
| TasksRoutes.ParseCreateWithLabels | backend/app/models/task.py:68-73 | the corrected schema accepts what the original accepts when `label_ids` is absent or a list, and keeps those ids |
| TasksRoutes.NewTaskWithLabelsDecodes | backend/app/models/task.py:25-37 | a task stored with labels reads back with them |
| TasksRoutes.CreateTaskKeepingLabels | backend/app/routes/tasks_routes.py:13-25 | the corrected create stores and answers the label ids the body gave |
| TasksRoutes.ClientCreateParses | frontend/src/lib/api.ts:48-55 | the client's create payload passes validation exactly when its deadline is a real date |
| TasksRoutes.CreateDropsLabels | backend/app/routes/tasks_routes.py:18 | a form with labels creates a task without them, while the corrected create keeps them |
| TasksRoutes.GetTask | backend/app/routes/tasks_routes.py:34-40 | a malformed id answers 422, an unknown one 404, an unreadable task 500; otherwise 200 with the task read back |
| TasksRoutes.ListTasks | backend/app/routes/tasks_routes.py:27-32 | the query picks the newest tasks, 50 by default, none twice; the answer is 200 with exactly those tasks read back unless one of them does not validate, which answers 500 |
| TasksRoutes.UpdateWith | backend/app/routes/tasks_routes.py:42-57 | a malformed id or body answers 422, an unknown task 404 and an unreadable one 500, with nothing changed; a valid update of a readable task writes exactly that task and answers what a get then answers |
| TasksRoutes.UpdateExcludingNullsSucceeds | backend/app/routes/tasks_routes.py:50-57 | with nulls excluded, a valid update of a readable task answers 200 with each given member changed |
| TasksRoutes.NullTitleBreaksTask | backend/app/routes/tasks_routes.py:50-57 | a null title answers 500 after the write, and the task then fails get and delete; with nulls excluded it answers 200 and keeps the title |
| TasksRoutes.ClientPatchesAgree | frontend/src/lib/api.ts:60-67 | the client never sends nulls, so for its patches both dumps behave the same |
| TasksRoutes.DeleteTask | backend/app/routes/tasks_routes.py:59-70 | a malformed id answers 422, an unknown one 404, an unreadable task 500; 204 means exactly that task was removed; labels are never touched |
| TasksRoutes.GetAfterDelete | backend/app/routes/tasks_routes.py:34-70 | after a delete, getting the same id in any case answers 404 |
| TasksRoutes.DeleteUndoesCreate | backend/app/routes/tasks_routes.py:13-70 | creating a task and deleting it restores the database |

## Left out

- Text.Lower: only ASCII letters are lower-cased. JavaScript `toLowerCase` and Python `lower` map all of Unicode, and this model does not include that table.
- Network, `fetch`, URL encoding and JSON parsing are left out. `request` gets the response's status, status text and parsed body as data. The list, get and delete wrappers in `api.ts` compose `Request` with the normalizers and are not separate members.
- Api.NormalizeTask: a deadline that is neither text nor missing, and a priority outside the three levels, are not modelled: the model's raw record holds a deadline text or nothing and a priority level or nothing, while `api.ts:33-34` pass other values through unchecked. A null member and a missing one are merged, which `??` does too; only `_id` keeps them apart (`Api.IdText`).
- Dashboard.Load: the `active` flag that ignores a load finishing after unmount, and the `loading` flag, are not modelled. React effects and concurrency are out of scope.
- Toast timers, ids and dismissal (`Toast.tsx`) are left out. Only the queued message and its variant are kept.
- The page does not reconcile its state with the server's answers to update, rename and recolour. The model follows the code: the optimistic edit stays.
- A client label delete strips the id from the page's tasks only. The backend delete route leaves `label_ids` on stored tasks, as `LabelsRoutes.DeleteLabel` states.
- The label schemas in `label_schema.py` are not used by the label routes, which take query parameters. Their only effect is the name-length rule the `Label` model applies when a label is built or read. The colour pattern is therefore not enforced by the routes.
- The labels router is not mounted in `backend/app/main.py:56`. It is modelled as its module defines it.
- Authentication, JWT handling and per-user scoping are left out. `user_id` is always empty or null, as in the routes.
- Lax Pydantic coercions are not modelled: numbers as text, and deadlines given as datetimes or timestamps. A deadline is accepted only as YYYY-MM-DD text.
- The structure of FastAPI's 422 `detail` list is not modelled. The model answers 422 with a fixed text.
- LabelsRoutes.CreateLabel: takes `name` as given text. A request without the required `name` query parameter (labels_routes.py:20) gets FastAPI's 422, which the model cannot express.
- LabelsRoutes.ListLabels: takes `limit` as an integer or nothing. A `limit` query parameter that is not an integer (labels_routes.py:13) gets FastAPI's 422, which the model cannot express.
- TasksRoutes.ListTasks: takes `limit` as an integer or nothing. A `limit` query parameter that is not an integer (tasks_routes.py:27) gets FastAPI's 422, which the model cannot express.
- `updated_at` is never refreshed by the update route. The model keeps it, as the code does.
- Database failures are left out: the `create_task` exception branch that answers 500, and lost connections.
- ObjectId generation and the clock are parameters (`newId`, `now`).
- TaskModel.RenameId: Python's `str` of a list is rendered without its escaping of quotes and backslashes, and a number or object (`WOther`) renders as the empty text. The document's `_id` is typed `Optional[PydanticObjectId]`, so only an ObjectId or None reaches it.
- LabelsRoutes.CreateLabel: when several labels share a key, which the collection invariant `Consistent` rules out, `find_one` returns one of them and the model answers 500 if any of them does not validate.
- Client and server keys differ on characters that only one runtime treats as whitespace. `Text.ClientServerDiffer` exhibits one; this is a property of the two runtimes, not a defect of the code.

## Findings

| source | as written | input that shows it | evidently intended | confidence | as-written member | corrected member |
|---|---|---|---|---|---|---|
| backend/app/models/task.py:68-73, backend/app/routes/tasks_routes.py:18 | `TaskCreateRequest` has no `label_ids`, so the labels the client sends are dropped and every new task is stored with none | a create body from a form with `label_ids` ["l1"] | the created task keeps the label ids the client sent, as the form and `api.ts:54` send them | not executed | TasksRoutes.CreateDropsLabels | TasksRoutes.CreateTaskKeepingLabels |
| backend/app/routes/tasks_routes.py:50-54 | `model_dump(exclude_unset=True)` keeps members explicitly set to null, although the comment says None values are excluded; `$set` then writes `title: null` | PATCH with body `{"title": null}` on an existing task | null members are left out of the update, and the task keeps its title | not executed | TasksRoutes.NullTitleBreaksTask | TasksRoutes.UpdateExcludingNullsSucceeds |

=== FILE: api.dfy ===
/** The browser's API client (`frontend/src/lib/api.ts`): turning an HTTP
    response into a value or an error message, defensively defaulting the
    server's task and label records, and building request bodies and query
    strings. The transport itself (`fetch`) is not modelled: a response is
    an input. */
module Api {
  import opened Wrappers
  import opened Text
  import opened Domain

  // ----- request --------------------------------------------------------

  /** The `detail` member of a parsed error body. FastAPI sends a string for
      an `HTTPException` and a list of objects for a validation error; the
      latter is carried as the text JavaScript renders it to. */
  datatype Detail = DetailText(text: string) | DetailStructured(rendering: string)

  /** A parsed JSON body: its `detail` member, if any, and the body as the
      caller's payload type. */
  datatype Body<P> = Body(detail: Option<Detail>, value: P)

  /** What `fetch` resolved to. `json` is None when the body is not JSON. */
  datatype Response<P> = Response(status: nat, statusText: string, json: Option<Body<P>>)

  /** How `request` settles: a payload, no content, or a rejection with an
      `Error` whose message is given; `Unparsable` is the rejection
      `res.json()` raises when a successful body is not JSON. */
  datatype Reply<P> = Payload(value: P) | NoContent | Rejected(message: string) | Unparsable

  /** `res.ok`. */
  predicate IsOk(status: nat) {
    200 <= status <= 299
  }

  /** The `detail` of a body, when it is truthy. */
  function TruthyDetail<P>(json: Option<Body<P>>): Option<string> {
    match json
    case None => None
    case Some(b) =>
      match b.detail
      case Some(DetailText(t)) => if t != "" then Some(t) else None
      case Some(DetailStructured(r)) => Some(r)
      case None => None
  }

  /** `body?.detail || res.statusText || "Request failed"`. */
  function ErrorReason<P>(res: Response<P>): string {
    match TruthyDetail(res.json)
    case Some(d) => d
    case None => if res.statusText != "" then res.statusText else "Request failed"
  }

  /** `request<T>`: a non-2xx status is a rejection carrying
      "<status> <reason>", 204 carries no payload, any other success carries
      the parsed body. */
  function Request<P>(res: Response<P>): (r: Reply<P>)
    ensures r.Rejected? <==> !IsOk(res.status)
    ensures res.status == 204 ==> r == NoContent
    ensures IsOk(res.status) && res.status != 204 ==>
      (res.json.Some? ==> r == Payload(res.json.value.value)) && (res.json.None? ==> r == Unparsable)
    ensures r.Rejected? ==> r.message == NatToString(res.status) + " " + ErrorReason(res)
  {
    if !IsOk(res.status) then Rejected(NatToString(res.status) + " " + ErrorReason(res))
    else if res.status == 204 then NoContent
    else match res.json
      case Some(b) => Payload(b.value)
      case None => Unparsable
  }

  /** The server's detail wins over the status text, which wins over the
      fixed fallback. */
  lemma ErrorReasonPreference<P>(res: Response<P>, d: string)
    ensures res.json.Some? && res.json.value.detail == Some(DetailText(d)) && d != "" ==>
      ErrorReason(res) == d
    ensures TruthyDetail(res.json).None? && res.statusText != "" ==> ErrorReason(res) == res.statusText
    ensures TruthyDetail(res.json).None? && res.statusText == "" ==> ErrorReason(res) == "Request failed"
  {
  }

  /** The digits at the front of a message. */
  function LeadingDigits(s: string): (r: string)
    ensures IsDigits(r) && |r| <= |s|
  {
    if s != [] && '0' <= s[0] <= '9' then [s[0]] + LeadingDigits(s[1..]) else []
  }

  lemma {:induction false} LeadingDigitsOf(d: string, rest: string)
    requires IsDigits(d)
    requires rest != [] && rest[0] == ' '
    ensures LeadingDigits(d + rest) == d
  {
    if d != [] {
      assert (d + rest)[1..] == d[1..] + rest;
      LeadingDigitsOf(d[1..], rest);
    }
  }

  /** The status code a rejection message starts with. */
  function MessageStatus(message: string): nat {
    DigitsValue(LeadingDigits(message))
  }

  /** A rejection message always lets the status be read back. */
  lemma RejectionCarriesStatus<P>(res: Response<P>)
    requires !IsOk(res.status)
    ensures Request(res).Rejected?
    ensures MessageStatus(Request(res).message) == res.status
  {
    var m := Request(res).message;
    assert m == NatToString(res.status) + (" " + ErrorReason(res));
    LeadingDigitsOf(NatToString(res.status), " " + ErrorReason(res));
    NatToStringRoundTrip(res.status);
  }

  // ----- normalizing records --------------------------------------------

  /** A JSON value where only its truthiness matters. */
  datatype JsScalar = JsBool(b: bool) | JsNumber(n: int) | JsString(s: string) | JsObject

  /** `Boolean(x)`; a missing or null value is false. */
  function Truthy(v: Option<JsScalar>): bool {
    match v
    case None => false
    case Some(JsBool(b)) => b
    case Some(JsNumber(n)) => n != 0
    case Some(JsString(s)) => s != ""
    case Some(JsObject) => true
  }

  /** A `label_ids` member: an array of ids, or something else. */
  datatype RawList = ArrayOf(items: seq<Id>) | NotAnArray

  /** The `_id` member of a record: absent, JSON null, or an id. It is the
      one member where the two differ, since `String` renders them
      differently. */
  datatype IdMember = NoId | NullId | IdOf(text: string)

  /** A task record as the server sent it; `None` is a missing or null
      member, which `??` treats alike. The server's documents carry `_id`;
      `id` appears when a record was serialized through the `id`
      renaming. */
  datatype RawTask = RawTask(
    id: Option<string>,
    underscoreId: IdMember,
    userId: Option<string>,
    title: Option<string>,
    description: Option<string>,
    priority: Option<Priority>,
    deadline: Option<string>,
    completed: Option<JsScalar>,
    labelIds: Option<RawList>,
    createdAt: Option<string>,
    updatedAt: Option<string>)

  /** A label record as the server sent it. */
  datatype RawLabel = RawLabel(
    id: Option<string>,
    underscoreId: IdMember,
    userId: Option<string>,
    name: Option<string>,
    nameNormalized: Option<string>,
    color: Option<string>,
    createdAt: Option<string>)

  /** `String(raw?.id ?? raw?._id)`: a null or missing `id` falls back to
      `_id`, and JavaScript renders a missing `_id` as "undefined" and a
      null one as "null". */
  function IdText(id: Option<string>, underscoreId: IdMember): (r: string)
    ensures id.Some? ==> r == id.value
    ensures id.None? && underscoreId.IdOf? ==> r == underscoreId.text
    ensures id.None? && underscoreId.NoId? ==> r == "undefined"
    ensures id.None? && underscoreId.NullId? ==> r == "null"
  {
    match id
    case Some(i) => i
    case None =>
      match underscoreId
      case IdOf(t) => t
      case NoId => "undefined"
      case NullId => "null"
  }

  /** `normalizeTask`: a client `Task` from whatever the server sent. */
  function NormalizeTask(raw: RawTask): (t: Task)
    ensures t.id == IdText(raw.id, raw.underscoreId)
    ensures raw.userId.Some? ==> t.userId == raw.userId.value
    ensures raw.userId.None? ==> t.userId == ""
    ensures raw.title.Some? ==> t.title == raw.title.value
    ensures raw.title.None? ==> t.title == ""
    ensures raw.priority.Some? ==> t.priority == raw.priority.value
    ensures raw.priority.None? ==> t.priority == Medium
    ensures raw.deadline.Some? ==> t.deadline == raw.deadline.value
    ensures raw.deadline.None? ==> t.deadline == ""
    ensures t.completed <==> Truthy(raw.completed)
    ensures raw.completed.None? ==> !t.completed
    ensures (raw.labelIds.Some? && raw.labelIds.value.ArrayOf?) ==> t.labelIds == raw.labelIds.value.items
    ensures !(raw.labelIds.Some? && raw.labelIds.value.ArrayOf?) ==> t.labelIds == []
    ensures t.description == raw.description && t.createdAt == raw.createdAt && t.updatedAt == raw.updatedAt
  {
    Task(
      IdText(raw.id, raw.underscoreId),
      raw.userId.GetOr(""),
      raw.title.GetOr(""),
      raw.description,
      raw.priority.GetOr(Medium),
      raw.deadline.GetOr(""),
      Truthy(raw.completed),
      match raw.labelIds case Some(ArrayOf(ids)) => ids case _ => [],
      raw.createdAt,
      raw.updatedAt)
  }

  /** The complete record a well-behaved server sends for a task. */
  function TaskToRaw(t: Task): RawTask {
    RawTask(Some(t.id), NoId, Some(t.userId), Some(t.title), t.description, Some(t.priority),
      Some(t.deadline), Some(JsBool(t.completed)), Some(ArrayOf(t.labelIds)), t.createdAt, t.updatedAt)
  }

  /** Defaulting loses nothing from a complete record, whether the server
      named the id `id` or `_id`. */
  lemma NormalizeTaskRoundTrip(t: Task)
    ensures NormalizeTask(TaskToRaw(t)) == t
    ensures NormalizeTask(TaskToRaw(t).(id := None, underscoreId := IdOf(t.id))) == t
  {
  }

  /** `normalizeLabel`: a client `Label` from whatever the server sent; a
      missing key is recomputed from the name. */
  function NormalizeLabel(raw: RawLabel): (l: Label)
    ensures l.id == IdText(raw.id, raw.underscoreId)
    ensures raw.userId.None? ==> l.userId == ""
    ensures l.name == raw.name.GetOr("")
    ensures raw.nameNormalized.Some? ==> l.nameNormalized == raw.nameNormalized.value
    ensures raw.nameNormalized.None? ==> l.nameNormalized == JsNormalize(l.name)
    ensures l.color == raw.color && l.createdAt == raw.createdAt
  {
    var name := raw.name.GetOr("");
    Label(
      IdText(raw.id, raw.underscoreId),
      raw.userId.GetOr(""),
      name,
      match raw.nameNormalized case Some(k) => k case None => JsNormalize(name),
      raw.color,
      raw.createdAt)
  }

  function LabelToRaw(l: Label): RawLabel {
    RawLabel(Some(l.id), NoId, Some(l.userId), Some(l.name), Some(l.nameNormalized), l.color, l.createdAt)
  }

  /** Complete records survive; a record without a key gets a consistent
      one. */
  lemma NormalizeLabelRoundTrip(l: Label)
    ensures NormalizeLabel(LabelToRaw(l)) == l
    ensures l.nameNormalized == JsNormalize(l.name) ==>
      NormalizeLabel(LabelToRaw(l).(nameNormalized := None)) == l
  {
  }

  // ----- request bodies -------------------------------------------------

  /** The members `apiUpdateTask` may send. */
  const PatchFields: set<string> := {"title", "description", "priority", "deadline", "label_ids", "completed"}

  /** `apiCreateTask`'s body: every member present, a missing description
      sent as null. */
  function CreateTaskBody(data: TaskFormData): (body: map<string, Wire>)
    ensures body.Keys == {"title", "description", "priority", "deadline", "label_ids"}
    ensures body["title"] == WStr(data.title)
    ensures body["description"] == (if data.description.Some? then WStr(data.description.value) else WNull)
    ensures body["priority"] == WStr(PriorityText(data.priority))
    ensures body["deadline"] == WStr(data.deadline)
    ensures body["label_ids"] == WStrList(data.labelIds)
  {
    map[
      "title" := WStr(data.title),
      "description" := (match data.description case Some(d) => WStr(d) case None => WNull),
      "priority" := WStr(PriorityText(data.priority)),
      "deadline" := WStr(data.deadline),
      "label_ids" := WStrList(data.labelIds)]
  }

  /** `Partial<TaskFormData> & { completed?: boolean }`. */
  datatype TaskPatch = TaskPatch(
    title: Option<string>,
    description: Option<string>,
    priority: Option<Priority>,
    deadline: Option<string>,
    labelIds: Option<seq<Id>>,
    completed: Option<bool>)

  function Put(body: map<string, Wire>, key: string, v: Option<Wire>): map<string, Wire> {
    match v
    case Some(w) => body[key := w]
    case None => body
  }

  function StrMember(v: Option<string>): Option<Wire> {
    match v case Some(s) => Some(WStr(s)) case None => None
  }

  /** `apiUpdateTask`'s body: exactly the members that are defined. */
  function UpdateTaskBody(p: TaskPatch): (body: map<string, Wire>)
    ensures body.Keys <= PatchFields
    ensures ("title" in body <==> p.title.Some?) && (p.title.Some? ==> body["title"] == WStr(p.title.value))
    ensures ("description" in body <==> p.description.Some?)
      && (p.description.Some? ==> body["description"] == WStr(p.description.value))
    ensures ("priority" in body <==> p.priority.Some?)
      && (p.priority.Some? ==> body["priority"] == WStr(PriorityText(p.priority.value)))
    ensures ("deadline" in body <==> p.deadline.Some?) && (p.deadline.Some? ==> body["deadline"] == WStr(p.deadline.value))
    ensures ("label_ids" in body <==> p.labelIds.Some?)
      && (p.labelIds.Some? ==> body["label_ids"] == WStrList(p.labelIds.value))
    ensures ("completed" in body <==> p.completed.Some?)
      && (p.completed.Some? ==> body["completed"] == WBool(p.completed.value))
  {
    var b := Put(map[], "title", StrMember(p.title));
    var b := Put(b, "description", StrMember(p.description));
    var b := Put(b, "priority", match p.priority case Some(x) => Some(WStr(PriorityText(x))) case None => None);
    var b := Put(b, "deadline", StrMember(p.deadline));
    var b := Put(b, "label_ids", match p.labelIds case Some(ids) => Some(WStrList(ids)) case None => None);
    Put(b, "completed", match p.completed case Some(c) => Some(WBool(c)) case None => None)
  }

  /** An update that carries a whole form. */
  function FormPatch(data: TaskFormData): TaskPatch {
    TaskPatch(Some(data.title), data.description, Some(data.priority), Some(data.deadline), Some(data.labelIds), None)
  }

  // ----- label query strings --------------------------------------------

  type Query = seq<(string, string)>

  /** Non-empty text, the truthiness test `x ? {...} : {}` applies. */
  predicate Given(v: Option<string>) {
    v.Some? && v.value != ""
  }

  /** `apiCreateLabel`'s query: the name always, the colour only when it is
      non-empty. */
  function CreateLabelQuery(name: string, color: Option<string>): Query {
    [("name", name)] + (if Given(color) then [("color", color.value)] else [])
  }

  /** `apiUpdateLabel`'s query: each member only when it is non-empty. */
  function UpdateLabelQuery(name: Option<string>, color: Option<string>): Query {
    (if Given(name) then [("name", name.value)] else [])
      + (if Given(color) then [("color", color.value)] else [])
  }

  /** The value the server reads for a query parameter. Starlette's
      `QueryParams` keeps the last of a repeated key for a scalar lookup. */
  function QueryValue(q: Query, key: string): (r: Option<string>)
    ensures r.Some? ==> exists i :: 0 <= i < |q| && q[i] == (key, r.value) && forall j :: i < j < |q| ==> q[j].0 != key
    ensures r.None? ==> forall i :: 0 <= i < |q| ==> q[i].0 != key
  {
    if q == [] then None
    else if q[|q| - 1].0 == key then Some(q[|q| - 1].1)
    else QueryValue(q[..|q| - 1], key)
  }

  /** What the server reads back from the client's label queries: the name
      it was given (on update only when non-empty), and the colour only
      when non-empty. */
  lemma LabelQueryRoundTrip(name: string, newName: Option<string>, color: Option<string>)
    ensures QueryValue(CreateLabelQuery(name, color), "name") == Some(name)
    ensures QueryValue(CreateLabelQuery(name, color), "color") == (if Given(color) then color else None)
    ensures QueryValue(UpdateLabelQuery(newName, color), "name") == (if Given(newName) then newName else None)
    ensures QueryValue(UpdateLabelQuery(newName, color), "color") == (if Given(color) then color else None)
  {
  }
}

=== FILE: dashboard.dfy ===
/** The dashboard page (`frontend/src/app/dashboard/page.tsx`) as a state
    machine. Each handler is a pure transition from the session before the
    call and the outcome of its remote call to the session after it; an
    optimistic handler keeps its change on success and restores the
    snapshot it took on failure, a creating handler changes nothing until
    the server answers. */
module Dashboard {
  import opened Wrappers
  import opened Text
  import opened Domain
  import opened Api
  import Seqs
  import LabelsManager

  /** The sidebar's view selector. */
  datatype TaskFilter = All | Active | Completed

  /** The toast variants the page uses (`show` defaults to an error). */
  datatype Variant = ErrorToast | SuccessToast

  datatype Notice = Notice(message: string, variant: Variant)

  /** What the awaited remote call did: resolved with a value, or threw an
      error whose `message` is given ("" when it had none). */
  datatype Outcome<T> = Ok(value: T) | Fail(message: string)

  /** The page's state. `notices` is the toast queue, newest last. */
  datatype Session = Session(
    tasks: seq<Task>,
    labels: seq<Label>,
    filter: TaskFilter,
    error: Option<string>,
    notices: seq<Notice>,
    showNewTask: bool,
    editTaskId: Option<Id>,
    deleteTaskId: Option<Id>)

  /** The state the page starts from. */
  const Start := Session([], [], All, None, [], false, None, None)

  /** `e?.message || fallback`. */
  function FailureText(message: string, fallback: string): (r: string)
    requires fallback != ""
    ensures r != ""
    ensures message != "" ==> r == message
    ensures message == "" ==> r == fallback
  {
    if message != "" then message else fallback
  }

  /** Reporting a failure: set the page error and queue an error toast. */
  function Report(s: Session, message: string): (r: Session)
    ensures r.error == Some(message) && r.notices == s.notices + [Notice(message, ErrorToast)]
    ensures r.(error := s.error, notices := s.notices) == s
  {
    s.(error := Some(message), notices := s.notices + [Notice(message, ErrorToast)])
  }

  // ----- loading ----------------------------------------------------------

  /** The initial load: both lists on success, otherwise a reported error. */
  function Load(s: Session, out: Outcome<(seq<Task>, seq<Label>)>): (r: Session)
    ensures out.Ok? ==> r.tasks == out.value.0 && r.labels == out.value.1
    ensures out.Ok? ==> r.(tasks := s.tasks, labels := s.labels) == s
    ensures out.Fail? ==> r == Report(s, FailureText(out.message, "Failed to load data"))
  {
    match out
    case Ok((ts, ls)) => s.(tasks := ts, labels := ls)
    case Fail(m) => Report(s, FailureText(m, "Failed to load data"))
  }

  // ----- the filtered view ----------------------------------------------

  /** Whether a view shows a task. */
  predicate Shows(f: TaskFilter, t: Task) {
    match f
    case All => true
    case Active => !t.completed
    case Completed => t.completed
  }

  function View(f: TaskFilter): Task -> bool {
    (t: Task) => Shows(f, t)
  }

  /** `filteredTasks`. */
  function FilteredTasks(tasks: seq<Task>, f: TaskFilter): (r: seq<Task>)
    ensures f == All ==> r == tasks
    ensures |r| <= |tasks|
    ensures forall i :: 0 <= i < |r| ==> r[i] in tasks && Shows(f, r[i])
    ensures forall i :: 0 <= i < |tasks| && Shows(f, tasks[i]) ==> tasks[i] in r
  {
    if f == All then tasks else Seqs.Filter(tasks, View(f))
  }

  /** Views keep the tasks' relative order: a view of a concatenation is
      the concatenation of the views. */
  lemma FilteredKeepsOrder(a: seq<Task>, b: seq<Task>, f: TaskFilter)
    ensures FilteredTasks(a + b, f) == FilteredTasks(a, f) + FilteredTasks(b, f)
  {
    if f != All {
      Seqs.FilterAppend(a, b, View(f));
    }
  }

  /** The active and completed views split the collection between them. */
  lemma ViewsPartition(tasks: seq<Task>)
    ensures |FilteredTasks(tasks, Active)| + |FilteredTasks(tasks, Completed)| == |tasks|
  {
    Seqs.FilterPartition(tasks, View(Active), View(Completed));
  }

  /** A view of a view is the same view. */
  lemma FilteredIdempotent(tasks: seq<Task>, f: TaskFilter)
    ensures FilteredTasks(FilteredTasks(tasks, f), f) == FilteredTasks(tasks, f)
  {
    if f != All {
      Seqs.FilterIdempotent(tasks, View(f));
    }
  }

  /** Choosing a view changes nothing but the view. */
  function SetFilter(s: Session, f: TaskFilter): (r: Session)
    ensures r.filter == f && r.(filter := s.filter) == s
  {
    s.(filter := f)
  }

  // ----- toggling completion --------------------------------------------

  /** Flip `completed` on every task with this id. */
  function Flip(tasks: seq<Task>, id: Id): (r: seq<Task>)
    ensures |r| == |tasks|
    ensures forall i :: 0 <= i < |tasks| ==> r[i].(completed := tasks[i].completed) == tasks[i]
    ensures forall i :: 0 <= i < |tasks| ==> (r[i].completed <==> (tasks[i].completed != (tasks[i].id == id)))
  {
    seq(|tasks|, i requires 0 <= i < |tasks| =>
      if tasks[i].id == id then tasks[i].(completed := !tasks[i].completed) else tasks[i])
  }

  /** The position of the first task with this id at or after `from`:
      `Array.prototype.find`. */
  function FindFrom(tasks: seq<Task>, id: Id, from: nat): (r: Option<nat>)
    requires from <= |tasks|
    ensures r.Some? ==> from <= r.value < |tasks| && tasks[r.value].id == id
    ensures r.Some? ==> forall j :: from <= j < r.value ==> tasks[j].id != id
    ensures r.None? ==> forall j :: from <= j < |tasks| ==> tasks[j].id != id
    decreases |tasks| - from
  {
    if from == |tasks| then None
    else if tasks[from].id == id then Some(from)
    else FindFrom(tasks, id, from + 1)
  }

  function Find(tasks: seq<Task>, id: Id): (r: Option<nat>)
    ensures r.Some? ==> r.value < |tasks| && tasks[r.value].id == id
    ensures r.Some? ==> forall j :: 0 <= j < r.value ==> tasks[j].id != id
    ensures r.None? ==> forall j :: 0 <= j < |tasks| ==> tasks[j].id != id
  {
    FindFrom(tasks, id, 0)
  }

  /** What `toggleComplete` sends: `{ completed: updated?.completed }`, the
      flag of the first matching task after the flip, or no member at all
      when no task matches. */
  function TogglePatch(tasks: seq<Task>, id: Id): TaskPatch {
    var next := Flip(tasks, id);
    TaskPatch(None, None, None, None, None,
      match Find(next, id) case Some(k) => Some(next[k].completed) case None => None)
  }

  /** The request carries the new flag of the task that was toggled, and
      nothing else; with no such task the body is empty. */
  lemma TogglePatchSendsNewFlag(tasks: seq<Task>, id: Id, k: nat)
    ensures k < |tasks| && tasks[k].id == id && (forall j :: 0 <= j < k ==> tasks[j].id != id) ==>
      UpdateTaskBody(TogglePatch(tasks, id)) == map["completed" := WBool(!tasks[k].completed)]
    ensures (forall j :: 0 <= j < |tasks| ==> tasks[j].id != id) ==> UpdateTaskBody(TogglePatch(tasks, id)) == map[]
  {
    var next := Flip(tasks, id);
    var b := UpdateTaskBody(TogglePatch(tasks, id));
    if k < |tasks| && tasks[k].id == id && (forall j :: 0 <= j < k ==> tasks[j].id != id) {
      assert forall j :: 0 <= j < |tasks| ==> next[j].id == tasks[j].id;
      assert Find(next, id) == Some(k);
      assert b.Keys == {"completed"};
    }
    if forall j :: 0 <= j < |tasks| ==> tasks[j].id != id {
      assert forall j :: 0 <= j < |tasks| ==> next[j].id == tasks[j].id;
      assert Find(next, id).None?;
      assert b.Keys == {};
    }
  }

  /** `toggleComplete(id)`. */
  function ToggleComplete(s: Session, id: Id, out: Outcome<()>): (r: Session)
    ensures out.Ok? ==> r.tasks == Flip(s.tasks, id) && r.(tasks := s.tasks) == s
    ensures out.Fail? ==> r.tasks == s.tasks
    ensures out.Fail? ==> r == s.(notices := s.notices + [Notice("Failed to update task", ErrorToast)])
  {
    match out
    case Ok(_) => s.(tasks := Flip(s.tasks, id))
    case Fail(_) => s.(notices := s.notices + [Notice("Failed to update task", ErrorToast)])
  }

  /** Toggling twice gives back the session. */
  lemma ToggleTwice(s: Session, id: Id)
    ensures ToggleComplete(ToggleComplete(s, id, Ok(())), id, Ok(())) == s
  {
    var once := Flip(s.tasks, id);
    var twice := Flip(once, id);
    assert twice == s.tasks by {
      forall i | 0 <= i < |s.tasks|
        ensures twice[i] == s.tasks[i]
      {
        assert once[i].id == s.tasks[i].id;
        assert twice[i].(completed := s.tasks[i].completed) == s.tasks[i];
      }
    }
  }

  // ----- creating a task ------------------------------------------------

  /** `createTask`: nothing changes until the server answers; its record
      then goes first and the form closes. */
  function CreateTask(s: Session, out: Outcome<Task>): (r: Session)
    ensures out.Ok? ==> |r.tasks| == |s.tasks| + 1 && r.tasks[0] == out.value && r.tasks[1..] == s.tasks
    ensures out.Ok? ==> !r.showNewTask && r.notices == s.notices + [Notice("Task created", SuccessToast)]
    ensures out.Ok? ==> r.(tasks := s.tasks, showNewTask := s.showNewTask, notices := s.notices) == s
    ensures out.Fail? ==> r.tasks == s.tasks && r == Report(s, FailureText(out.message, "Failed to create task"))
  {
    match out
    case Ok(t) => s.(tasks := [t] + s.tasks, showNewTask := false, notices := s.notices + [Notice("Task created", SuccessToast)])
    case Fail(m) => Report(s, FailureText(m, "Failed to create task"))
  }

  // ----- saving a task --------------------------------------------------

  /** Overwrite the form's fields on every task with this id. */
  function Overwrite(tasks: seq<Task>, id: Id, data: TaskFormData): (r: seq<Task>)
    ensures |r| == |tasks|
    ensures forall i :: 0 <= i < |tasks| && tasks[i].id != id ==> r[i] == tasks[i]
    ensures forall i :: 0 <= i < |tasks| && tasks[i].id == id ==>
      r[i].title == data.title && r[i].description == data.description && r[i].priority == data.priority
      && r[i].deadline == data.deadline && r[i].labelIds == data.labelIds
    ensures forall i :: 0 <= i < |tasks| ==>
      r[i].id == tasks[i].id && r[i].userId == tasks[i].userId && r[i].completed == tasks[i].completed
      && r[i].createdAt == tasks[i].createdAt && r[i].updatedAt == tasks[i].updatedAt
  {
    seq(|tasks|, i requires 0 <= i < |tasks| =>
      if tasks[i].id == id then
        tasks[i].(title := data.title, description := data.description, priority := data.priority,
                  deadline := data.deadline, labelIds := data.labelIds)
      else tasks[i])
  }

  /** The form data a task shows in the editor. */
  function FormOf(t: Task): TaskFormData {
    TaskFormData(t.title, t.description, t.priority, t.deadline, t.labelIds)
  }

  /** After saving, every task with that id shows exactly the saved data,
      and saving the same data again changes nothing. */
  lemma SaveThenReopen(tasks: seq<Task>, id: Id, data: TaskFormData)
    ensures forall i :: 0 <= i < |tasks| && tasks[i].id == id ==> FormOf(Overwrite(tasks, id, data)[i]) == data
    ensures Overwrite(Overwrite(tasks, id, data), id, data) == Overwrite(tasks, id, data)
  {
  }

  /** Saving a task's own form data leaves it as it was. */
  lemma SaveOwnData(tasks: seq<Task>, k: nat)
    requires k < |tasks| && TaskIdsDistinct(tasks)
    ensures Overwrite(tasks, tasks[k].id, FormOf(tasks[k])) == tasks
  {
    var r := Overwrite(tasks, tasks[k].id, FormOf(tasks[k]));
    forall i | 0 <= i < |tasks|
      ensures r[i] == tasks[i]
    {
      assert i != k ==> tasks[i].id != tasks[k].id by {
        if i < k {
          assert tasks[i].id != tasks[k].id;
        } else if k < i {
          assert tasks[k].id != tasks[i].id;
        }
      }
    }
  }

  /** `saveTask(id, data)`: the editor closes either way. */
  function SaveTask(s: Session, id: Id, data: TaskFormData, out: Outcome<()>): (r: Session)
    ensures r.editTaskId.None?
    ensures out.Ok? ==> r.tasks == Overwrite(s.tasks, id, data) && r.(tasks := s.tasks, editTaskId := s.editTaskId) == s
    ensures out.Fail? ==> r.tasks == s.tasks
    ensures out.Fail? ==> r == Report(s, "Failed to save changes").(editTaskId := None)
  {
    match out
    case Ok(_) => s.(tasks := Overwrite(s.tasks, id, data), editTaskId := None)
    case Fail(_) => Report(s.(editTaskId := None), "Failed to save changes")
  }

  // ----- deleting a task ------------------------------------------------

  function NotTask(id: Id): Task -> bool {
    (t: Task) => t.id != id
  }

  /** `askDeleteTask(id)`. */
  function AskDelete(s: Session, id: Id): (r: Session)
    ensures r.deleteTaskId == Some(id) && r.(deleteTaskId := s.deleteTaskId) == s
  {
    s.(deleteTaskId := Some(id))
  }

  /** `confirmDelete`: nothing when no delete is pending (null or the empty
      id); otherwise the pending id is cleared and the tasks with it go. */
  function ConfirmDelete(s: Session, out: Outcome<()>): (r: Session)
    ensures s.deleteTaskId.None? || s.deleteTaskId == Some("") ==> r == s
    ensures s.deleteTaskId.Some? && s.deleteTaskId != Some("") ==> r.deleteTaskId.None?
    ensures s.deleteTaskId.Some? && s.deleteTaskId != Some("") && out.Ok? ==>
      var id := s.deleteTaskId.value;
      (forall t :: multiset(r.tasks)[t] == if t.id == id then 0 else multiset(s.tasks)[t])
      && r.(tasks := s.tasks, deleteTaskId := s.deleteTaskId) == s
    ensures s.deleteTaskId.Some? && s.deleteTaskId != Some("") && out.Fail? ==>
      r.tasks == s.tasks && r == Report(s, "Failed to delete task").(deleteTaskId := None)
  {
    match s.deleteTaskId
    case None => s
    case Some(id) =>
      if id == "" then s
      else
        var s' := s.(deleteTaskId := None);
        match out
        case Ok(_) =>
          Seqs.FilterCounts(s.tasks, NotTask(id));
          s'.(tasks := Seqs.Filter(s.tasks, NotTask(id)))
        case Fail(_) => Report(s', "Failed to delete task")
  }

  /** The surviving tasks keep their order: deleting from a list split in
      two deletes from each part in place. */
  lemma ConfirmDeleteKeepsOrder(s: Session, a: seq<Task>, b: seq<Task>)
    requires s.deleteTaskId.Some? && s.deleteTaskId != Some("") && s.tasks == a + b
    ensures ConfirmDelete(s, Ok(())).tasks
      == ConfirmDelete(s.(tasks := a), Ok(())).tasks + ConfirmDelete(s.(tasks := b), Ok(())).tasks
  {
    Seqs.FilterAppend(a, b, NotTask(s.deleteTaskId.value));
  }

  /** Deleting a task that was just created gives back the tasks as they
      were, provided its id was new. */
  lemma DeleteUndoesCreate(s: Session, t: Task)
    requires forall i :: 0 <= i < |s.tasks| ==> s.tasks[i].id != t.id
    requires t.id != ""
    ensures ConfirmDelete(AskDelete(CreateTask(s, Ok(t)), t.id), Ok(())).tasks == s.tasks
  {
    var p := NotTask(t.id);
    var created := CreateTask(s, Ok(t));
    assert created.tasks == [t] + s.tasks;
    var asked := AskDelete(created, t.id);
    assert asked.tasks == created.tasks && asked.deleteTaskId == Some(t.id);
    assert ConfirmDelete(asked, Ok(())).tasks == Seqs.Filter(asked.tasks, p);
    Seqs.FilterAppend([t], s.tasks, p);
    Seqs.FilterAll(s.tasks, p);
    assert Seqs.Filter([t], p) == [];
  }

  // ----- labels ---------------------------------------------------------

  /** `createLabel(name, color)`: the server's record goes last. */
  function CreateLabel(s: Session, out: Outcome<Label>): (r: Session)
    ensures out.Ok? ==> |r.labels| == |s.labels| + 1 && r.labels[..|s.labels|] == s.labels && r.labels[|s.labels|] == out.value
    ensures out.Ok? ==> r.(labels := s.labels) == s
    ensures out.Fail? ==> r.labels == s.labels && r == Report(s, FailureText(out.message, "Failed to create label"))
  {
    match out
    case Ok(l) => s.(labels := s.labels + [l])
    case Fail(m) => Report(s, FailureText(m, "Failed to create label"))
  }

  /** Rename every label with this id; the key is computed here. */
  function Relabel(labels: seq<Label>, id: Id, newName: string): (r: seq<Label>)
    ensures |r| == |labels|
    ensures forall i :: 0 <= i < |labels| && labels[i].id != id ==> r[i] == labels[i]
    ensures forall i :: 0 <= i < |labels| && labels[i].id == id ==>
      r[i].name == newName && r[i].nameNormalized == JsNormalize(newName)
      && r[i].(name := labels[i].name, nameNormalized := labels[i].nameNormalized) == labels[i]
  {
    seq(|labels|, i requires 0 <= i < |labels| =>
      if labels[i].id == id then labels[i].(name := newName, nameNormalized := JsNormalize(newName)) else labels[i])
  }

  /** `renameLabel(id, newName)`. */
  function RenameLabel(s: Session, id: Id, newName: string, out: Outcome<()>): (r: Session)
    ensures out.Ok? ==> r.labels == Relabel(s.labels, id, newName) && r.(labels := s.labels) == s
    ensures out.Fail? ==> r.labels == s.labels && r == Report(s, "Failed to rename label")
  {
    match out
    case Ok(_) => s.(labels := Relabel(s.labels, id, newName))
    case Fail(_) => Report(s, "Failed to rename label")
  }

  /** Every key still matches its name after a rename. */
  lemma RenameKeepsKeysMatchNames(s: Session, id: Id, newName: string, out: Outcome<()>)
    requires KeysMatchNames(s.labels)
    ensures KeysMatchNames(RenameLabel(s, id, newName, out).labels)
  {
  }

  /** A rename the label manager let through keeps the keys distinct. */
  lemma RenameKeepsKeysDistinct(s: Session, k: nat, newName: string, out: Outcome<()>)
    requires KeysDistinct(s.labels) && LabelIdsDistinct(s.labels)
    requires k < |s.labels| && LabelsManager.RenameValid(s.labels, s.labels[k], newName)
    ensures KeysDistinct(RenameLabel(s, s.labels[k].id, newName, out).labels)
  {
    var id := s.labels[k].id;
    if out.Ok? {
      var r := Relabel(s.labels, id, newName);
      assert r == s.labels[k := s.labels[k].(nameNormalized := JsNormalize(newName), name := newName)] by {
        forall i | 0 <= i < |r|
          ensures r[i] == s.labels[k := s.labels[k].(nameNormalized := JsNormalize(newName), name := newName)][i]
        {
          assert i != k ==> s.labels[i].id != id by {
            if i < k {
              assert s.labels[i].id != s.labels[k].id;
            } else if k < i {
              assert s.labels[k].id != s.labels[i].id;
            }
          }
        }
      }
      LabelsManager.RenameKeepsKeysDistinct(s.labels, k, newName);
      assert forall i :: 0 <= i < |r| ==>
        r[i].nameNormalized == s.labels[k := s.labels[k].(nameNormalized := JsNormalize(newName))][i].nameNormalized;
    }
  }

  /** Recolour every label with this id. */
  function Recolor(labels: seq<Label>, id: Id, color: string): (r: seq<Label>)
    ensures |r| == |labels|
    ensures forall i :: 0 <= i < |labels| && labels[i].id != id ==> r[i] == labels[i]
    ensures forall i :: 0 <= i < |labels| && labels[i].id == id ==>
      r[i].color == Some(color) && r[i].(color := labels[i].color) == labels[i]
  {
    seq(|labels|, i requires 0 <= i < |labels| => if labels[i].id == id then labels[i].(color := Some(color)) else labels[i])
  }

  /** `recolorLabel(id, color)`. */
  function RecolorLabel(s: Session, id: Id, color: string, out: Outcome<()>): (r: Session)
    ensures out.Ok? ==> r.labels == Recolor(s.labels, id, color) && r.(labels := s.labels) == s
    ensures out.Fail? ==> r.labels == s.labels && r == Report(s, "Failed to update label color")
  {
    match out
    case Ok(_) => s.(labels := Recolor(s.labels, id, color))
    case Fail(_) => Report(s, "Failed to update label color")
  }

  /** A recolour leaves names, keys and ids where they were. */
  lemma RecolorKeepsKeys(s: Session, id: Id, color: string, out: Outcome<()>)
    ensures KeySet(RecolorLabel(s, id, color, out).labels) == KeySet(s.labels)
    ensures KeysMatchNames(s.labels) ==> KeysMatchNames(RecolorLabel(s, id, color, out).labels)
  {
    var r := RecolorLabel(s, id, color, out).labels;
    assert forall i :: 0 <= i < |r| ==> r[i].nameNormalized == s.labels[i].nameNormalized;
  }

  function NotLabel(id: Id): Label -> bool {
    (l: Label) => l.id != id
  }

  function OtherId(id: Id): Id -> bool {
    (x: Id) => x != id
  }

  /** Strip the id from every task's label list. */
  function Strip(tasks: seq<Task>, id: Id): (r: seq<Task>)
    ensures |r| == |tasks|
    ensures forall i :: 0 <= i < |tasks| ==> r[i].(labelIds := tasks[i].labelIds) == tasks[i]
    ensures forall i :: 0 <= i < |tasks| ==> r[i].labelIds == Seqs.Filter(tasks[i].labelIds, OtherId(id))
  {
    seq(|tasks|, i requires 0 <= i < |tasks| => tasks[i].(labelIds := Seqs.Filter(tasks[i].labelIds, OtherId(id))))
  }

  /** `deleteLabel(id)`: the cascade, rolled back as a whole. */
  function DeleteLabel(s: Session, id: Id, out: Outcome<()>): (r: Session)
    ensures out.Ok? ==> r.labels == Seqs.Filter(s.labels, NotLabel(id)) && r.tasks == Strip(s.tasks, id)
    ensures out.Ok? ==> r.(labels := s.labels, tasks := s.tasks) == s
    ensures out.Fail? ==> r.labels == s.labels && r.tasks == s.tasks && r == Report(s, "Failed to delete label")
  {
    match out
    case Ok(_) => s.(labels := Seqs.Filter(s.labels, NotLabel(id)), tasks := Strip(s.tasks, id))
    case Fail(_) => Report(s, "Failed to delete label")
  }

  /** After a successful delete neither the label nor any reference to it
      remains, the other ids of each task keep their order, and every other
      label is kept. */
  lemma DeleteLabelLeavesNoTrace(s: Session, id: Id)
    ensures var r := DeleteLabel(s, id, Ok(()));
      !HasLabel(r.labels, id) && !Referenced(r.tasks, id)
      && (forall i :: 0 <= i < |s.labels| && s.labels[i].id != id ==> s.labels[i] in r.labels)
      && (forall i, x :: 0 <= i < |s.tasks| && x in s.tasks[i].labelIds && x != id ==> x in r.tasks[i].labelIds)
  {
    var r := DeleteLabel(s, id, Ok(()));
    forall i | 0 <= i < |r.labels|
      ensures r.labels[i].id != id
    {
      assert NotLabel(id)(r.labels[i]);
    }
    forall i, j | 0 <= i < |r.tasks| && 0 <= j < |r.tasks[i].labelIds|
      ensures r.tasks[i].labelIds[j] != id
    {
      assert OtherId(id)(r.tasks[i].labelIds[j]);
    }
    forall i, x | 0 <= i < |s.tasks| && x in s.tasks[i].labelIds && x != id
      ensures x in r.tasks[i].labelIds
    {
      var ids := s.tasks[i].labelIds;
      var j :| 0 <= j < |ids| && ids[j] == x;
      assert OtherId(id)(ids[j]);
    }
  }

  /** Every label id a task refers to names a label. */
  predicate NoDangling(tasks: seq<Task>, labels: seq<Label>) {
    forall i, x :: 0 <= i < |tasks| && x in tasks[i].labelIds ==> HasLabel(labels, x)
  }

  /** A successful label delete keeps the session free of dangling ids. */
  lemma DeleteLabelKeepsNoDangling(s: Session, id: Id, out: Outcome<()>)
    requires NoDangling(s.tasks, s.labels)
    ensures var r := DeleteLabel(s, id, out); NoDangling(r.tasks, r.labels)
  {
    if out.Ok? {
      var r := DeleteLabel(s, id, out);
      forall i, x | 0 <= i < |r.tasks| && x in r.tasks[i].labelIds
        ensures HasLabel(r.labels, x)
      {
        var ids := r.tasks[i].labelIds;
        var j :| 0 <= j < |ids| && ids[j] == x;
        assert x in s.tasks[i].labelIds && x != id;
        assert HasLabel(s.labels, x);
        var k :| 0 <= k < |s.labels| && s.labels[k].id == x;
        assert NotLabel(id)(s.labels[k]);
        assert s.labels[k] in r.labels;
      }
    }
  }

  /** Deleting a label that was just created gives back both collections,
      provided its id was new and nothing refers to it. */
  lemma DeleteUndoesCreateLabel(s: Session, l: Label)
    requires !HasLabel(s.labels, l.id) && !Referenced(s.tasks, l.id)
    ensures var r := DeleteLabel(CreateLabel(s, Ok(l)), l.id, Ok(()));
      r.labels == s.labels && r.tasks == s.tasks
  {
    var p := NotLabel(l.id);
    Seqs.FilterAppend(s.labels, [l], p);
    Seqs.FilterAll(s.labels, p);
    assert Seqs.Filter([l], p) == [];
    var r := Strip(s.tasks, l.id);
    forall i | 0 <= i < |s.tasks|
      ensures r[i] == s.tasks[i]
    {
      assert l.id !in s.tasks[i].labelIds;
      Seqs.FilterAll(s.tasks[i].labelIds, OtherId(l.id));
    }
  }
}

=== FILE: domain.dfy ===
/** The entities both halves of the system talk about: tasks, labels, the
    priority enumeration, and the JSON values that cross the wire. */
module Domain {
  import opened Wrappers
  import opened Text

  /** Server-assigned identifiers (Mongo ObjectIds rendered as text). */
  type Id = string

  /** `PriorityLevel` on the server; `'low' | 'medium' | 'high'` on the
      client. */
  datatype Priority = High | Medium | Low

  /** The enumeration's wire value. */
  function PriorityText(p: Priority): string {
    match p
    case High => "high"
    case Medium => "medium"
    case Low => "low"
  }

  /** Reading an enumeration value back; anything else is not a priority. */
  function ParsePriority(s: string): (r: Option<Priority>)
    ensures r.Some? <==> s == "high" || s == "medium" || s == "low"
  {
    if s == "high" then Some(High)
    else if s == "medium" then Some(Medium)
    else if s == "low" then Some(Low)
    else None
  }

  /** Text form and enumeration are mutually inverse. */
  lemma PriorityRoundTrip(p: Priority, s: string)
    ensures ParsePriority(PriorityText(p)) == Some(p)
    ensures ParsePriority(s).Some? ==> PriorityText(ParsePriority(s).value) == s
  {
  }

  /** The client's `Task` record. */
  datatype Task = Task(
    id: Id,
    userId: string,
    title: string,
    description: Option<string>,
    priority: Priority,
    deadline: string,
    completed: bool,
    labelIds: seq<Id>,
    createdAt: Option<string>,
    updatedAt: Option<string>)

  /** The client's `Label` record. */
  datatype Label = Label(
    id: Id,
    userId: string,
    name: string,
    nameNormalized: string,
    color: Option<string>,
    createdAt: Option<string>)

  /** `TaskFormData`: what the task form submits. */
  datatype TaskFormData = TaskFormData(
    title: string,
    description: Option<string>,
    priority: Priority,
    deadline: string,
    labelIds: seq<Id>)

  /** A JSON value as it travels in a request body or is stored by the
      server. `WOid` is a Mongo ObjectId, which only the server holds;
      `WOther` stands for numbers and objects, which no field here uses. */
  datatype Wire = WNull | WBool(b: bool) | WStr(s: string) | WStrList(items: seq<string>) | WOid(hex: string) | WOther

  // ----- label-key invariants -------------------------------------------

  /** The set of keys in use, as the label manager builds it. */
  function KeySet(labels: seq<Label>): (r: set<string>)
    ensures forall i :: 0 <= i < |labels| ==> labels[i].nameNormalized in r
    ensures forall k :: k in r ==> exists i :: 0 <= i < |labels| && labels[i].nameNormalized == k
  {
    set i | 0 <= i < |labels| :: labels[i].nameNormalized
  }

  /** No two labels share a key. */
  predicate KeysDistinct(labels: seq<Label>) {
    forall i, j :: 0 <= i < j < |labels| ==> labels[i].nameNormalized != labels[j].nameNormalized
  }

  /** No two labels share an id. */
  predicate LabelIdsDistinct(labels: seq<Label>) {
    forall i, j :: 0 <= i < j < |labels| ==> labels[i].id != labels[j].id
  }

  /** No two tasks share an id. */
  predicate TaskIdsDistinct(tasks: seq<Task>) {
    forall i, j :: 0 <= i < j < |tasks| ==> tasks[i].id != tasks[j].id
  }

  /** Every label's key is the client-side key of its name. */
  predicate KeysMatchNames(labels: seq<Label>) {
    forall i :: 0 <= i < |labels| ==> labels[i].nameNormalized == JsNormalize(labels[i].name)
  }

  /** Some label has this id. */
  predicate HasLabel(labels: seq<Label>, id: Id) {
    exists i :: 0 <= i < |labels| && labels[i].id == id
  }

  /** Some task refers to this label id. */
  predicate Referenced(tasks: seq<Task>, id: Id) {
    exists i :: 0 <= i < |tasks| && id in tasks[i].labelIds
  }
}

=== FILE: label_schema.dfy ===
/** The label validators (`backend/app/schemas/label_schema.py`) and the
    name-length rule of the label document (`backend/app/models/label.py`). */
module LabelSchema {
  import opened Wrappers
  import opened Text
  import LabelsManager

  /** `min_length=1, max_length=50`, counted in code points. */
  predicate NameLengthOk(name: string) {
    1 <= |name| <= 50
  }

  /** `^#[0-9A-Fa-f]{6}$`, matched against the whole text. */
  predicate IsHexColor(s: string) {
    |s| == 7 && s[0] == '#' && forall i :: 1 <= i < 7 ==> IsHexDigit(s[i])
  }

  datatype LabelCreate = LabelCreate(name: string, color: Option<string>)

  datatype LabelUpdate = LabelUpdate(name: Option<string>, color: Option<string>)

  /** What goes wrong with a label body. */
  datatype Problem = BadName | BadColor

  /** `LabelCreate`: the name must have 1 to 50 characters; a colour, when
      given, must be `#` and six hexadecimal digits. */
  function ValidateCreate(name: string, color: Option<string>): (r: Result<LabelCreate, Problem>)
    ensures r.Success? <==> NameLengthOk(name) && (color.None? || IsHexColor(color.value))
    ensures r.Success? ==> r.value == LabelCreate(name, color)
    ensures !NameLengthOk(name) ==> r == Failure(BadName)
  {
    if !NameLengthOk(name) then Failure(BadName)
    else if color.Some? && !IsHexColor(color.value) then Failure(BadColor)
    else Success(LabelCreate(name, color))
  }

  /** `LabelUpdate`: both members optional, each checked as on creation
      when present. */
  function ValidateUpdate(name: Option<string>, color: Option<string>): (r: Result<LabelUpdate, Problem>)
    ensures r.Success? <==> (name.None? || NameLengthOk(name.value)) && (color.None? || IsHexColor(color.value))
    ensures r.Success? ==> r.value == LabelUpdate(name, color)
  {
    if name.Some? && !NameLengthOk(name.value) then Failure(BadName)
    else if color.Some? && !IsHexColor(color.value) then Failure(BadColor)
    else Success(LabelUpdate(name, color))
  }

  /** An empty update is accepted, and an update naming a label accepts
      exactly what creation accepts. */
  lemma UpdateAgreesWithCreate(name: string, color: Option<string>)
    ensures ValidateUpdate(None, None) == Success(LabelUpdate(None, None))
    ensures ValidateUpdate(Some(name), color).Success? <==> ValidateCreate(name, color).Success?
  {
  }

  /** Every preset colour of the label manager passes the server's pattern,
      while a short or unprefixed code does not. */
  lemma PresetsAreHexColors()
    ensures forall i :: 0 <= i < |LabelsManager.ColorPresets| ==> IsHexColor(LabelsManager.ColorPresets[i])
    ensures !IsHexColor("#fff") && !IsHexColor("f97316") && !IsHexColor("#f9731g")
  {
    var p := LabelsManager.ColorPresets;
    assert IsHexColor(p[0]) by {
      assert p[0] == "#f97316";
    }
    assert IsHexColor(p[1]) by {
      assert p[1] == "#ec4899";
    }
    assert IsHexColor(p[2]) by {
      assert p[2] == "#dc2626";
    }
    assert IsHexColor(p[3]) by {
      assert p[3] == "#f59e0b";
    }
    assert !IsHexColor("#f9731g") by {
      assert "#f9731g"[6] == 'g';
    }
  }
}

=== FILE: labels_manager.dfy ===
/** The label manager dialog
    (`frontend/src/components/labels/LabelsManagerModal.tsx`): the
    case-insensitive duplicate check for new labels, the per-row rename
    check and its Update gate, and the inline name editor. */
module LabelsManager {
  import opened Wrappers
  import opened Text
  import opened Domain

  /** `COLOR_PRESETS`. */
  const ColorPresets: seq<string> := ["#f97316", "#ec4899", "#dc2626", "#f59e0b"]

  // ----- creating -------------------------------------------------------

  /** The "new label" input and its chosen colour. */
  datatype NewLabelForm = NewLabelForm(name: string, color: string)

  const EmptyForm := NewLabelForm("", ColorPresets[0])

  /** `isDuplicate`: the typed name has a key that some label already
      uses. */
  predicate IsDuplicate(labels: seq<Label>, name: string) {
    var key := JsNormalize(name);
    |key| > 0 && key in KeySet(labels)
  }

  /** `canCreate`. */
  predicate CanCreate(labels: seq<Label>, name: string) {
    |JsNormalize(name)| > 0 && !IsDuplicate(labels, name)
  }

  /** `onCreate(name, color)`. */
  datatype CreateCall = CreateCall(name: string, color: string)

  datatype Added = Added(form: NewLabelForm, call: Option<CreateCall>)

  /** `addLabel`: hand on the trimmed name and the chosen colour, then
      reset the input; do nothing when the name may not be created. */
  function AddLabel(labels: seq<Label>, f: NewLabelForm): (r: Added)
    ensures r.call.Some? <==> CanCreate(labels, f.name)
    ensures r.call.Some? ==> r.call.value == CreateCall(Trim(JsSpaces, f.name), f.color) && r.form == EmptyForm
    ensures r.call.None? ==> r.form == f
  {
    if !CanCreate(labels, f.name) then Added(f, None)
    else Added(EmptyForm, Some(CreateCall(Trim(JsSpaces, f.name), f.color)))
  }

  /** The duplicate check is exactly "the key is non-empty and in use", and
      creation is allowed exactly when the key is non-empty and unused. */
  lemma CanCreateIff(labels: seq<Label>, name: string)
    ensures IsDuplicate(labels, name) <==>
      JsNormalize(name) != "" && exists i :: 0 <= i < |labels| && labels[i].nameNormalized == JsNormalize(name)
    ensures CanCreate(labels, name) <==>
      JsNormalize(name) != "" && forall i :: 0 <= i < |labels| ==> labels[i].nameNormalized != JsNormalize(name)
  {
  }

  /** The gate's purpose: a label created through it, keyed by the name
      handed on, keeps the keys pairwise distinct. */
  lemma AddKeepsKeysDistinct(labels: seq<Label>, f: NewLabelForm, created: Label)
    requires KeysDistinct(labels)
    requires AddLabel(labels, f).call.Some?
    requires created.nameNormalized == JsNormalize(AddLabel(labels, f).call.value.name)
    ensures KeysDistinct(labels + [created])
    ensures created.nameNormalized == JsNormalize(f.name)
  {
    RuntimeSpacesAreWhitespace();
    NormalizeOfTrim(JsSpaces, f.name);
    var all := labels + [created];
    forall i, j | 0 <= i < j < |all|
      ensures all[i].nameNormalized != all[j].nameNormalized
    {
      if j == |labels| {
        assert all[i] == labels[i];
      }
    }
  }

  lemma WorkSpacing()
    ensures 'w' !in JsSpaces && 'k' !in JsSpaces && ' ' in JsSpaces
  {
  }

  /** "work" is its own key. */
  lemma WorkKey()
    ensures JsNormalize("work") == "work"
  {
    var w := "work";
    assert Stripped(JsSpaces, w) by {
      WorkSpacing();
      assert w[0] == 'w' && w[|w| - 1] == 'k';
    }
    assert IsLower(w);
    LowerOfLower(w);
    JsNormalizeOfPadded([], w, []);
    assert [] + w + [] == w;
  }

  /** "work " trims to "work". */
  lemma PaddedWorkKey()
    ensures JsNormalize("work ") == "work"
  {
    var w := "work";
    assert Stripped(JsSpaces, w) by {
      WorkSpacing();
      assert w[0] == 'w' && w[|w| - 1] == 'k';
    }
    assert AllSpace(JsSpaces, " ") by {
      WorkSpacing();
      assert " "[0] == ' ';
    }
    assert IsLower(w);
    LowerOfLower(w);
    JsNormalizeOfPadded([], w, " ");
    assert [] + w + " " == "work ";
  }

  /** "Work" exists; neither "work" nor "work " may be added. */
  lemma WorkThenWork(l: Label)
    requires l.nameNormalized == "work"
    ensures !CanCreate([l], "work") && !CanCreate([l], "work ")
  {
    WorkKey();
    PaddedWorkKey();
    assert [l][0].nameNormalized == "work";
  }

  // ----- renaming a row -------------------------------------------------

  /** A row's edit buffer. */
  datatype RowEdit = RowEdit(value: string, dirty: bool, valid: bool)

  /** The buffer a row shows: its edit, or the label's own name. */
  function Current(edits: map<Id, RowEdit>, l: Label): RowEdit {
    if l.id in edits then edits[l.id] else RowEdit(l.name, false, true)
  }

  /** A row may be renamed to a value whose key is non-empty and either is
      the label's own key or is not in use. */
  predicate RenameValid(labels: seq<Label>, l: Label, value: string) {
    var norm := JsNormalize(value);
    |norm| > 0 && (norm == l.nameNormalized || norm !in KeySet(labels))
  }

  /** Typing into a row: the buffer becomes dirty and records validity. */
  function SetValue(labels: seq<Label>, edits: map<Id, RowEdit>, l: Label, value: string): (r: map<Id, RowEdit>)
    ensures l.id in r && r[l.id] == RowEdit(value, true, RenameValid(labels, l, value))
    ensures forall id :: id in edits && id != l.id ==> id in r && r[id] == edits[id]
    ensures r.Keys == edits.Keys + {l.id}
  {
    edits[l.id := RowEdit(value, true, RenameValid(labels, l, value))]
  }

  /** `onRename(id, newName)`. */
  datatype RenameCall = RenameCall(id: Id, name: string)

  datatype Pressed = Pressed(edits: map<Id, RowEdit>, call: Option<RenameCall>)

  /** The Update button: only a dirty, valid buffer is handed on, untrimmed,
      and the buffer is then clean. */
  function PressUpdate(labels: seq<Label>, edits: map<Id, RowEdit>, l: Label): (r: Pressed)
    ensures r.call.Some? <==> Current(edits, l).dirty && RenameValid(labels, l, Current(edits, l).value)
    ensures r.call.Some? ==> r.call.value == RenameCall(l.id, Current(edits, l).value)
    ensures r.call.Some? ==> l.id in r.edits && !r.edits[l.id].dirty && r.edits[l.id].value == Current(edits, l).value
    ensures r.call.None? ==> r.edits == edits
  {
    var current := Current(edits, l);
    var valid := RenameValid(labels, l, current.value);
    if current.dirty && valid then
      Pressed(edits[l.id := RowEdit(current.value, false, valid)], Some(RenameCall(l.id, current.value)))
    else Pressed(edits, None)
  }

  /** A row that was never edited hands nothing on. */
  lemma UntouchedRowIsInert(labels: seq<Label>, l: Label)
    ensures PressUpdate(labels, map[], l).call.None?
  {
  }

  /** A label may always be renamed to its own name, in any letter case and
      with any surrounding whitespace. */
  lemma RenameToOwnName(labels: seq<Label>, l: Label, a: string, v: string, b: string)
    requires l.nameNormalized == JsNormalize(l.name) && l.nameNormalized != ""
    requires AllSpace(JsSpaces, a) && AllSpace(JsSpaces, b)
    requires Lower(v) == Lower(l.name)
    ensures RenameValid(labels, l, a + v + b)
  {
    RuntimeSpacesAreWhitespace();
    NormalizeIgnoresPaddingAndCase(JsSpaces, a, v, b);
    NormalizeIgnoresPaddingAndCase(JsSpaces, [], v, []);
    NormalizeIgnoresPaddingAndCase(JsSpaces, [], l.name, []);
  }

  /** Renaming a row through the gate keeps the keys pairwise distinct once
      the new key is in place. */
  lemma RenameKeepsKeysDistinct(labels: seq<Label>, k: nat, value: string)
    requires KeysDistinct(labels)
    requires k < |labels| && RenameValid(labels, labels[k], value)
    ensures KeysDistinct(labels[k := labels[k].(nameNormalized := JsNormalize(value))])
  {
    var r := labels[k := labels[k].(nameNormalized := JsNormalize(value))];
    forall i, j | 0 <= i < j < |r|
      ensures r[i].nameNormalized != r[j].nameNormalized
    {
      if i == k {
        assert labels[j].nameNormalized in KeySet(labels);
      } else if j == k {
        assert labels[i].nameNormalized in KeySet(labels);
      }
    }
  }

  // ----- the inline editor ----------------------------------------------

  /** `InlineNameEditor`'s buffer. */
  datatype Inline = Inline(value: string, dirty: bool)

  /** Its rule: a non-empty key that is unused or the name's own key. */
  predicate InlineValid(existing: set<string>, name: string, value: string) {
    var norm := JsNormalize(value);
    |norm| > 0 && (norm !in existing || norm == JsNormalize(name))
  }

  datatype InlineSaved = InlineSaved(editor: Inline, saved: Option<string>)

  /** Its Update button: save only a dirty, valid value, then be clean. */
  function InlineSave(existing: set<string>, name: string, e: Inline): (r: InlineSaved)
    ensures r.saved.Some? <==> e.dirty && InlineValid(existing, name, e.value)
    ensures r.saved.Some? ==> r.saved.value == e.value && r.editor == Inline(e.value, false)
    ensures r.saved.None? ==> r.editor == e
  {
    if e.dirty && InlineValid(existing, name, e.value) then InlineSaved(Inline(e.value, false), Some(e.value))
    else InlineSaved(e, None)
  }

  /** The inline editor applies the same rule as a row, given the row's key
      set and a label whose key matches its name. */
  lemma InlineAgreesWithRow(labels: seq<Label>, l: Label, value: string)
    requires l.nameNormalized == JsNormalize(l.name)
    ensures InlineValid(KeySet(labels), l.name, value) <==> RenameValid(labels, l, value)
  {
  }
}

=== FILE: labels_routes.dfy ===
/** The labels router (`backend/app/routes/labels_routes.py`) over the
    in-memory store: names are unique under the server's key
    `name.strip().lower()`, and reading a label back goes through the label
    model, whose name must have 1 to 50 characters. */
module LabelsRoutes {
  import opened Wrappers
  import opened Text
  import opened Domain
  import opened Store
  import opened Listing
  import LabelSchema

  const Duplicate := "Label name already exists"
  const NotFound := "Label not found"
  /** FastAPI's answer to a request it could not validate. */
  const Invalid := "Unprocessable Entity"
  /** FastAPI's answer to an exception the route did not catch. */
  const Crashed := "Internal Server Error"
  const DefaultLimit := 100

  /** The label model accepts a document. */
  predicate Loads(l: LabelDoc) {
    LabelSchema.NameLengthOk(l.name)
  }

  /** Some label other than `except` already uses the key. */
  predicate KeyTaken(labels: map<Id, LabelDoc>, key: string, except: Option<Id>) {
    exists id :: id in labels && labels[id].nameNormalized == key && except != Some(id)
  }

  /** A label other than `except` uses the key but does not validate, so
      the `find_one` that looks for it fails. */
  predicate KeyBroken(labels: map<Id, LabelDoc>, key: string, except: Option<Id>) {
    exists id :: id in labels && labels[id].nameNormalized == key && except != Some(id) && !Loads(labels[id])
  }

  /** The collection invariant: keys are pairwise distinct and each is the
      server's key of its name. */
  predicate Consistent(labels: map<Id, LabelDoc>) {
    (forall a, b :: a in labels && b in labels && a != b ==> labels[a].nameNormalized != labels[b].nameNormalized)
    && (forall id :: id in labels ==> labels[id].nameNormalized == PyNormalize(labels[id].name))
  }

  /** `create_label(name, color)`: `newId` is the ObjectId the store
      assigns and `now` the clock reading. The duplicate lookup reads the
      label it finds through the model, so a duplicate that does not
      validate fails with 500 rather than 409. */
  function CreateLabel(db: Db, name: string, color: Option<string>, newId: Id, now: int): (r: Step<(Id, LabelDoc)>)
    requires newId !in db.labels
    ensures r.db.tasks == db.tasks
    ensures KeyBroken(db.labels, PyNormalize(name), None) ==> r == Step(db, Refused(500, Crashed))
    ensures KeyTaken(db.labels, PyNormalize(name), None) && !KeyBroken(db.labels, PyNormalize(name), None) ==>
      r == Step(db, Refused(409, Duplicate))
    ensures !KeyTaken(db.labels, PyNormalize(name), None) && !LabelSchema.NameLengthOk(name) ==>
      r == Step(db, Refused(500, Crashed))
    ensures r.reply.Answer? <==> !KeyTaken(db.labels, PyNormalize(name), None) && LabelSchema.NameLengthOk(name)
    ensures r.reply.Answer? ==>
      (r.reply.status == 201 && r.reply.body.0 == newId
       && r.db.labels == db.labels[newId := r.reply.body.1]
       && r.reply.body.1 == LabelDoc(name, PyNormalize(name), color, None, now))
  {
    var key := PyNormalize(name);
    if KeyBroken(db.labels, key, None) then Step(db, Refused(500, Crashed))
    else if KeyTaken(db.labels, key, None) then Step(db, Refused(409, Duplicate))
    else if !LabelSchema.NameLengthOk(name) then Step(db, Refused(500, Crashed))
    else
      var l := LabelDoc(name, key, color, None, now);
      Step(db.(labels := db.labels[newId := l]), Answer(201, (newId, l)))
  }

  /** The document an update writes. */
  function Changed(l: LabelDoc, name: Option<string>, color: Option<string>): (r: LabelDoc)
    ensures r.name == (if name.Some? then name.value else l.name)
    ensures r.nameNormalized == (if name.Some? then PyNormalize(name.value) else l.nameNormalized)
    ensures r.color == (if color.Some? then color else l.color)
    ensures r.userId == l.userId && r.createdAt == l.createdAt
  {
    var l := if name.Some? then l.(name := name.value, nameNormalized := PyNormalize(name.value)) else l;
    if color.Some? then l.(color := color) else l
  }

  /** `update_label(label_id, name, color)`. */
  function UpdateLabel(db: Db, labelId: string, name: Option<string>, color: Option<string>): (r: Step<(Id, LabelDoc)>)
    ensures r.db.tasks == db.tasks
    ensures !IsObjectId(labelId) ==> r == Step(db, Refused(422, Invalid))
    ensures IsObjectId(labelId) && StoredId(labelId) !in db.labels ==> r == Step(db, Refused(404, NotFound))
    ensures (IsObjectId(labelId) && StoredId(labelId) in db.labels && Loads(db.labels[StoredId(labelId)])
             && name.Some? && KeyBroken(db.labels, PyNormalize(name.value), Some(StoredId(labelId)))) ==>
      r == Step(db, Refused(500, Crashed))
    ensures (IsObjectId(labelId) && StoredId(labelId) in db.labels && Loads(db.labels[StoredId(labelId)])
             && name.Some? && KeyTaken(db.labels, PyNormalize(name.value), Some(StoredId(labelId)))
             && !KeyBroken(db.labels, PyNormalize(name.value), Some(StoredId(labelId)))) ==>
      r == Step(db, Refused(409, Duplicate))
    ensures r.reply.Answer? <==>
      (IsObjectId(labelId) && StoredId(labelId) in db.labels
       && Loads(db.labels[StoredId(labelId)])
       && !(name.Some? && KeyTaken(db.labels, PyNormalize(name.value), Some(StoredId(labelId))))
       && Loads(Changed(db.labels[StoredId(labelId)], name, color)))
    ensures r.reply.Answer? ==>
      (r.reply.status == 200 && r.reply.body.0 == StoredId(labelId)
       && r.reply.body.1 == Changed(db.labels[StoredId(labelId)], name, color)
       && r.db.labels == db.labels[StoredId(labelId) := r.reply.body.1])
    ensures r.db.labels.Keys == db.labels.Keys
    ensures forall id :: id in db.labels && id != StoredId(labelId) ==> r.db.labels[id] == db.labels[id]
    ensures name.None? && color.None? ==> r.db == db
  {
    if !IsObjectId(labelId) then Step(db, Refused(422, Invalid))
    else
      var id := StoredId(labelId);
      if id !in db.labels then Step(db, Refused(404, NotFound))
      else if !Loads(db.labels[id]) then Step(db, Refused(500, Crashed))
      else if name.Some? && KeyBroken(db.labels, PyNormalize(name.value), Some(id)) then Step(db, Refused(500, Crashed))
      else if name.Some? && KeyTaken(db.labels, PyNormalize(name.value), Some(id)) then Step(db, Refused(409, Duplicate))
      else
        var l := Changed(db.labels[id], name, color);
        var db' := if name.None? && color.None? then db else db.(labels := db.labels[id := l]);
        if Loads(l) then Step(db', Answer(200, (id, l))) else Step(db', Refused(500, Crashed))
  }

  /** `delete_label(label_id)`: the tasks collection is not touched, so
      tasks keep the id of a deleted label. */
  function DeleteLabel(db: Db, labelId: string): (r: Step<()>)
    ensures r.db.tasks == db.tasks
    ensures !IsObjectId(labelId) ==> r == Step(db, Refused(422, Invalid))
    ensures IsObjectId(labelId) && StoredId(labelId) !in db.labels ==> r == Step(db, Refused(404, NotFound))
    ensures r.reply == NoBody(204) <==>
      IsObjectId(labelId) && StoredId(labelId) in db.labels && Loads(db.labels[StoredId(labelId)])
    ensures r.reply == NoBody(204) ==> r.db.labels == db.labels - {StoredId(labelId)}
    ensures r.reply != NoBody(204) ==> r.db == db
  {
    if !IsObjectId(labelId) then Step(db, Refused(422, Invalid))
    else
      var id := StoredId(labelId);
      if id !in db.labels then Step(db, Refused(404, NotFound))
      else if !Loads(db.labels[id]) then Step(db, Refused(500, Crashed))
      else Step(db.(labels := db.labels - {id}), NoBody(204))
  }

  /** `list_labels(limit)`: the query picks the oldest labels, at most
      `limit` of them (100 when the query does not say), and the answer
      reads each back; it fails with 500 exactly when one of the picked
      labels does not validate. `picked` is the query's selection. */
  method ListLabels(db: Db, limit: Option<int>) returns (r: Reply<seq<(Id, LabelDoc)>>, picked: seq<Id>)
    ensures |picked| == Taken(limit.GetOr(DefaultLimit), |db.labels|)
    ensures forall i :: 0 <= i < |picked| ==> picked[i] in db.labels
    ensures forall i, j :: 0 <= i < j < |picked| ==>
      picked[i] != picked[j] && db.labels[picked[i]].createdAt <= db.labels[picked[j]].createdAt
    ensures forall i, id :: 0 <= i < |picked| && id in db.labels && id !in picked ==>
      db.labels[picked[i]].createdAt <= db.labels[id].createdAt
    ensures r.Answer? <==> forall i :: 0 <= i < |picked| ==> Loads(db.labels[picked[i]])
    ensures !r.Answer? ==> r == Refused(500, Crashed)
    ensures r.Answer? ==> r.status == 200 && |r.body| == |picked|
    ensures r.Answer? ==> forall i :: 0 <= i < |picked| ==> r.body[i] == (picked[i], db.labels[picked[i]])
    ensures (forall id :: id in db.labels ==> Loads(db.labels[id])) ==> r.Answer?
  {
    var created := map id | id in db.labels :: db.labels[id].createdAt;
    assert created.Keys == db.labels.Keys;
    assert |created| == |db.labels| by {
      assert |created.Keys| == |db.labels.Keys|;
    }
    picked := SelectOrdered(created, false, limit.GetOr(DefaultLimit));
    if exists i :: 0 <= i < |picked| && !Loads(db.labels[picked[i]]) {
      return Refused(500, Crashed), picked;
    }
    r := Answer(200, seq(|picked|, i requires 0 <= i < |picked| => (picked[i], db.labels[picked[i]])));
  }

  // ----- the invariant --------------------------------------------------

  /** Storing a label under an id keeps the collection consistent when
      its key is its name's key and no other label has that key. */
  lemma StoreKeepsConsistent(labels: map<Id, LabelDoc>, id: Id, l: LabelDoc)
    requires Consistent(labels)
    requires l.nameNormalized == PyNormalize(l.name)
    requires !KeyTaken(labels, l.nameNormalized, Some(id))
    ensures Consistent(labels[id := l])
  {
    var labels' := labels[id := l];
    forall a, b | a in labels' && b in labels' && a != b
      ensures labels'[a].nameNormalized != labels'[b].nameNormalized
    {
      if a == id {
        assert labels[b].nameNormalized != l.nameNormalized;
      } else if b == id {
        assert labels[a].nameNormalized != l.nameNormalized;
      }
    }
  }

  lemma CreateKeepsConsistent(db: Db, name: string, color: Option<string>, newId: Id, now: int)
    requires newId !in db.labels && Consistent(db.labels)
    ensures Consistent(CreateLabel(db, name, color, newId, now).db.labels)
  {
    var r := CreateLabel(db, name, color, newId, now);
    if r.reply.Answer? {
      StoreKeepsConsistent(db.labels, newId, r.reply.body.1);
    }
  }

  lemma UpdateKeepsConsistent(db: Db, labelId: string, name: Option<string>, color: Option<string>)
    requires Consistent(db.labels)
    ensures Consistent(UpdateLabel(db, labelId, name, color).db.labels)
  {
    var r := UpdateLabel(db, labelId, name, color);
    if r.db != db {
      var id := StoredId(labelId);
      var l := Changed(db.labels[id], name, color);
      assert r.db.labels == db.labels[id := l];
      if name.None? {
        assert l.nameNormalized == db.labels[id].nameNormalized;
        assert !KeyTaken(db.labels, l.nameNormalized, Some(id));
      }
      StoreKeepsConsistent(db.labels, id, l);
    }
  }

  lemma DeleteKeepsConsistent(db: Db, labelId: string)
    requires Consistent(db.labels)
    ensures Consistent(DeleteLabel(db, labelId).db.labels)
  {
  }

  // ----- scenarios ------------------------------------------------------

  /** A label may always be renamed to its own key, whatever the case or
      padding of the new name. */
  lemma RenameToOwnKey(db: Db, labelId: string, name: string)
    requires Consistent(db.labels) && IsObjectId(labelId) && StoredId(labelId) in db.labels
    requires Loads(db.labels[StoredId(labelId)]) && LabelSchema.NameLengthOk(name)
    requires PyNormalize(name) == db.labels[StoredId(labelId)].nameNormalized
    ensures UpdateLabel(db, labelId, Some(name), None).reply.status == 200
  {
  }

  lemma PySpacing()
    ensures 'W' !in PySpaces && 'w' !in PySpaces && 'k' !in PySpaces
  {
  }

  /** The server's key of "work" is "work". */
  lemma ServerKeyOfWork()
    ensures PyNormalize("work") == "work"
  {
    var w: string := ['w', 'o', 'r', 'k'];
    PySpacing();
    assert Stripped(PySpaces, w) && IsLower(w);
    PyKeyOfKey(w);
  }

  /** The server's key of "Work" is "work". */
  lemma ServerKeyOfCapitalWork()
    ensures PyNormalize("Work") == "work"
  {
    var w: string := ['W', 'o', 'r', 'k'];
    PySpacing();
    assert Stripped(PySpaces, w);
    PyKeyOfStripped(w);
    var l := Lower(w);
    assert l[0] == 'w' && l[1] == 'o' && l[2] == 'r' && l[3] == 'k';
    assert l == "work";
  }

  /** "Work" is created; "work" then gets 409 and the store keeps one
      label. */
  lemma WorkThenWork(db: Db, id1: Id, id2: Id, t1: int, t2: int)
    requires db.labels == map[] && id1 != id2
    ensures var first := CreateLabel(db, "Work", None, id1, t1);
      first.reply.Answer? && first.reply.status == 201
      && CreateLabel(first.db, "work", None, id2, t2) == Step(first.db, Refused(409, Duplicate))
  {
    ServerKeyOfWork();
    ServerKeyOfCapitalWork();
    var first := CreateLabel(db, "Work", None, id1, t1);
    assert !KeyTaken(db.labels, "work", None);
    assert LabelSchema.NameLengthOk("Work");
    assert first.db.labels[id1].nameNormalized == "work";
    assert KeyTaken(first.db.labels, PyNormalize("work"), None);
  }
}

=== FILE: listing.dfy ===
/** The list queries both routers run: `find_all().sort(created_at)`,
    ascending or descending, then `.limit(n)`. The store does not promise an
    order among documents created at the same instant, so the selection
    below may order ties either way. */
module Listing {
  import opened Domain

  /** How many documents `.limit(n)` lets through out of `count`: a limit
      of 0 means no limit, and a negative limit counts as its absolute
      value. */
  function Taken(limit: int, count: nat): (r: nat)
    ensures r <= count
    ensures limit == 0 ==> r == count
    ensures limit > 0 ==> r == if limit < count then limit else count
    ensures limit < 0 ==> r == if -limit < count then -limit else count
  {
    if limit == 0 then count
    else
      var a := if limit < 0 then -limit else limit;
      if a < count then a else count
  }

  /** `a` may come before `b` in the chosen direction. */
  predicate Before(a: int, b: int, descending: bool) {
    if descending then a >= b else a <= b
  }

  predicate Ordered(created: map<Id, int>, xs: seq<Id>, descending: bool) {
    forall i, j :: 0 <= i < j < |xs| && xs[i] in created && xs[j] in created ==>
      Before(created[xs[i]], created[xs[j]], descending)
  }

  /** Every non-empty set of documents has one that may go first. */
  lemma {:induction false} FirstExists(created: map<Id, int>, s: set<Id>, descending: bool) returns (m: Id)
    requires s != {} && s <= created.Keys
    ensures m in s && forall x :: x in s ==> Before(created[m], created[x], descending)
    decreases |s|
  {
    var y :| y in s;
    if s == {y} {
      m := y;
    } else {
      var m' := FirstExists(created, s - {y}, descending);
      if Before(created[y], created[m'], descending) {
        m := y;
      } else {
        m := m';
      }
    }
  }

  /** The ids of the documents a sorted, limited query returns: as many as
      the limit lets through, no id twice, in order, and none of the
      documents left out may come before one returned. */
  method SelectOrdered(created: map<Id, int>, descending: bool, limit: int) returns (out: seq<Id>)
    ensures |out| == Taken(limit, |created|)
    ensures forall i :: 0 <= i < |out| ==> out[i] in created
    ensures forall i, j :: 0 <= i < j < |out| ==> out[i] != out[j]
    ensures Ordered(created, out, descending)
    ensures forall i, x :: 0 <= i < |out| && x in created && x !in out ==>
      Before(created[out[i]], created[x], descending)
  {
    var n := Taken(limit, |created|);
    out := [];
    var rest := created.Keys;
    while |out| < n
      invariant |out| <= n
      invariant |rest| + |out| == |created|
      invariant forall x :: x in rest <==> x in created && x !in out
      invariant forall i :: 0 <= i < |out| ==> out[i] in created
      invariant forall i, j :: 0 <= i < j < |out| ==> out[i] != out[j]
      invariant Ordered(created, out, descending)
      invariant forall i, x :: 0 <= i < |out| && x in rest ==> Before(created[out[i]], created[x], descending)
    {
      ghost var first := FirstExists(created, rest, descending);
      var m :| m in rest && forall x :: x in rest ==> Before(created[m], created[x], descending);
      out := out + [m];
      rest := rest - {m};
    }
  }
}

=== FILE: seqs.dfy ===
/** Order-preserving filtering, the `Array.prototype.filter` the client
    uses for the task views, for deleting tasks and labels, and for
    stripping a label id from a task. */
module Seqs {

  /** The elements of `xs` that satisfy `p`, in their original order. */
  function Filter<T>(xs: seq<T>, p: T -> bool): (r: seq<T>)
    ensures |r| <= |xs|
    ensures forall i :: 0 <= i < |r| ==> r[i] in xs && p(r[i])
    ensures forall i :: 0 <= i < |xs| && p(xs[i]) ==> xs[i] in r
  {
    if xs == [] then []
    else if p(xs[0]) then [xs[0]] + Filter(xs[1..], p)
    else Filter(xs[1..], p)
  }

  /** Filtering distributes over concatenation: this pins down that the
      kept elements stay in their original relative order. */
  lemma {:induction false} FilterAppend<T>(a: seq<T>, b: seq<T>, p: T -> bool)
    ensures Filter(a + b, p) == Filter(a, p) + Filter(b, p)
  {
    if a == [] {
      assert a + b == b;
    } else {
      assert (a + b)[1..] == a[1..] + b;
      FilterAppend(a[1..], b, p);
    }
  }

  /** Filtering keeps every passing element exactly as often as it occurs,
      and no other element. */
  lemma {:induction false} FilterCounts<T>(xs: seq<T>, p: T -> bool)
    ensures forall x :: multiset(Filter(xs, p))[x] == if p(x) then multiset(xs)[x] else 0
  {
    if xs != [] {
      FilterCounts(xs[1..], p);
      assert xs == [xs[0]] + xs[1..];
    }
  }

  /** Filtering a filtered sequence again changes nothing. */
  lemma {:induction false} FilterIdempotent<T>(xs: seq<T>, p: T -> bool)
    ensures Filter(Filter(xs, p), p) == Filter(xs, p)
  {
    if xs != [] {
      FilterIdempotent(xs[1..], p);
    }
  }

  /** When every element passes, filtering is the identity. */
  lemma {:induction false} FilterAll<T>(xs: seq<T>, p: T -> bool)
    requires forall i :: 0 <= i < |xs| ==> p(xs[i])
    ensures Filter(xs, p) == xs
  {
    if xs != [] {
      FilterAll(xs[1..], p);
    }
  }

  /** Filtering out one rejected element between passing ones leaves the
      others in place. */
  lemma FilterDropsOne<T>(a: seq<T>, x: T, b: seq<T>, p: T -> bool)
    requires forall i :: 0 <= i < |a| ==> p(a[i])
    requires forall i :: 0 <= i < |b| ==> p(b[i])
    requires !p(x)
    ensures Filter(a + [x] + b, p) == a + b
  {
    assert Filter([x], p) == [] by {
      assert [x][1..] == [];
    }
    FilterAll(a, p);
    FilterAppend(a, [x], p);
    assert Filter(a + [x], p) == a;
    FilterAll(b, p);
    FilterAppend(a + [x], b, p);
  }

  /** A predicate and its negation split a sequence in two. */
  lemma {:induction false} FilterPartition<T>(xs: seq<T>, p: T -> bool, q: T -> bool)
    requires forall x :: q(x) == !p(x)
    ensures |Filter(xs, p)| + |Filter(xs, q)| == |xs|
  {
    if xs != [] {
      FilterPartition(xs[1..], p, q);
    }
  }

  predicate NoDuplicates<T(==)>(xs: seq<T>) {
    forall i, j :: 0 <= i < j < |xs| ==> xs[i] != xs[j]
  }

  /** Filtering never introduces duplicates. */
  lemma {:induction false} FilterKeepsNoDuplicates<T>(xs: seq<T>, p: T -> bool)
    requires NoDuplicates(xs)
    ensures NoDuplicates(Filter(xs, p))
  {
    if xs != [] {
      FilterKeepsNoDuplicates(xs[1..], p);
      assert xs[0] !in xs[1..];
    }
  }
}

=== FILE: store.dfy ===
/** The server's database as two collections keyed by ObjectId text, and
    the shape of a route's answer. */
module Store {
  import opened Wrappers
  import opened Text
  import opened Domain
  import opened TaskModel

  /** A label document (`backend/app/models/label.py`). */
  datatype LabelDoc = LabelDoc(
    name: string,
    nameNormalized: string,
    color: Option<string>,
    userId: Option<string>,
    createdAt: int)

  /** The `tasks` and `labels` collections. Ids are the lower-case
      hexadecimal text of ObjectIds. */
  datatype Db = Db(tasks: map<Id, TaskDoc>, labels: map<Id, LabelDoc>)

  /** A route's answer: a status with a body, a bare status, or an error
      status with its `detail`. */
  datatype Reply<T> = Answer(status: nat, body: T) | NoBody(status: nat) | Refused(status: nat, detail: string)

  /** A route's effect: the database afterwards, and the answer. */
  datatype Step<T> = Step(db: Db, reply: Reply<T>)

  /** A `PydanticObjectId` path parameter: 24 hexadecimal digits in either
      case; anything else is answered with 422 before the route runs. */
  predicate IsObjectId(s: string) {
    |s| == 24 && forall i :: 0 <= i < |s| ==> IsHexDigit(s[i])
  }

  /** The stored id a valid path parameter names. */
  function StoredId(s: string): (r: Id)
    ensures |r| == |s|
  {
    Lower(s)
  }

  /** A path parameter names the same document in either letter case. */
  lemma StoredIdIgnoresCase(a: string, b: string)
    requires Lower(a) == Lower(b)
    ensures StoredId(a) == StoredId(b)
  {
  }

  /** The text of an ObjectId is already stored-id form. */
  lemma StoredIdOfStored(s: string)
    requires IsLower(s)
    ensures StoredId(s) == s
  {
    LowerOfLower(s);
  }
}

=== FILE: task_form.dfy ===
/** The task form (`frontend/src/components/tasks/TaskForm.tsx`): its
    initial values, the label toggle, and the validation done on submit
    before anything reaches the network. */
module TaskForm {
  import opened Wrappers
  import opened Text
  import opened Domain
  import Seqs

  /** Field-level messages; `None` is no message. */
  datatype FormErrors = FormErrors(title: Option<string>, deadline: Option<string>)

  /** The form's state. */
  datatype FormState = FormState(
    title: string,
    description: string,
    priority: Priority,
    deadline: string,
    labelIds: seq<Id>,
    errors: FormErrors)

  /** `Partial<TaskFormData>`: the defaults a caller may pass. */
  datatype Defaults = Defaults(
    title: Option<string>,
    description: Option<string>,
    priority: Option<Priority>,
    deadline: Option<string>,
    labelIds: Option<seq<Id>>)

  const NoDefaults := Defaults(None, None, None, None, None)

  const TitleRequired := "Title is required"
  const DeadlineRequired := "Deadline is required"

  /** The state the form opens with. */
  function Initial(d: Option<Defaults>): (f: FormState)
    ensures f.errors == FormErrors(None, None)
    ensures d.Some? && d.value.title.Some? ==> f.title == d.value.title.value
    ensures d.Some? && d.value.description.Some? ==> f.description == d.value.description.value
    ensures d.Some? && d.value.priority.Some? ==> f.priority == d.value.priority.value
    ensures d.Some? && d.value.deadline.Some? ==> f.deadline == d.value.deadline.value
    ensures d.Some? && d.value.labelIds.Some? ==> f.labelIds == d.value.labelIds.value
    ensures (d.None? || d.value.title.None?) ==> f.title == ""
    ensures (d.None? || d.value.description.None?) ==> f.description == ""
    ensures (d.None? || d.value.priority.None?) ==> f.priority == Medium
    ensures (d.None? || d.value.deadline.None?) ==> f.deadline == ""
    ensures (d.None? || d.value.labelIds.None?) ==> f.labelIds == []
  {
    var v := d.GetOr(NoDefaults);
    FormState(
      v.title.GetOr(""),
      v.description.GetOr(""),
      v.priority.GetOr(Medium),
      v.deadline.GetOr(""),
      v.labelIds.GetOr([]),
      FormErrors(None, None))
  }

  /** Opening the form without defaults gives an empty medium-priority
      task. */
  lemma InitialWithoutDefaults()
    ensures Initial(None) == FormState("", "", Medium, "", [], FormErrors(None, None))
    ensures Initial(Some(NoDefaults)) == Initial(None)
  {
  }

  /** The ids `toggleLabel` keeps when it drops `id`. */
  function Except(id: Id): Id -> bool {
    (x: Id) => x != id
  }

  /** `toggleLabel`: drop every occurrence of `id` when it is selected,
      otherwise append it. */
  function ToggleLabel(ids: seq<Id>, id: Id): (r: seq<Id>)
    ensures id in ids ==> multiset(r) == multiset(ids)[id := 0]
    ensures id !in ids ==> r == ids + [id]
    ensures forall x :: x in r ==> x in ids || x == id
  {
    if id in ids then
      Seqs.FilterCounts(ids, Except(id));
      Seqs.Filter(ids, Except(id))
    else ids + [id]
  }

  /** Unselecting a label takes it out where it stood and leaves the other
      ids in their order. */
  lemma ToggleRemovesInPlace(a: seq<Id>, id: Id, b: seq<Id>)
    requires id !in a && id !in b
    ensures ToggleLabel(a + [id] + b, id) == a + b
  {
    var ids := a + [id] + b;
    assert ids[|a|] == id;
    Seqs.FilterDropsOne(a, id, b, Except(id));
  }

  /** Toggling keeps a selection free of duplicates. */
  lemma ToggleKeepsNoDuplicates(ids: seq<Id>, id: Id)
    requires Seqs.NoDuplicates(ids)
    ensures Seqs.NoDuplicates(ToggleLabel(ids, id))
  {
    if id in ids {
      Seqs.FilterKeepsNoDuplicates(ids, Except(id));
    }
  }

  /** Toggling the same id twice restores which ids are selected; starting
      from an unselected id it restores the exact selection. */
  lemma ToggleTwice(ids: seq<Id>, id: Id)
    ensures forall x :: x in ToggleLabel(ToggleLabel(ids, id), id) <==> x in ids
    ensures id !in ids ==> ToggleLabel(ToggleLabel(ids, id), id) == ids
  {
    if id !in ids {
      var p := Except(id);
      Seqs.FilterAppend(ids, [id], p);
      Seqs.FilterAll(ids, p);
      assert Seqs.Filter([id], p) == [];
    }
  }

  /** What pressing submit did: the new errors, and the data handed to
      `onSubmit` when there were none. */
  datatype Submitted = Submitted(form: FormState, output: Option<TaskFormData>)

  /** `submit`: a title that is blank after trimming and an empty deadline
      are both reported; only a clean form is handed on, with its title
      trimmed. */
  function Submit(f: FormState): (s: Submitted)
    ensures s.form.errors.title.Some? <==> Trim(JsSpaces, f.title) == ""
    ensures s.form.errors.title.Some? ==> s.form.errors.title.value == TitleRequired
    ensures s.form.errors.deadline.Some? <==> f.deadline == ""
    ensures s.form.errors.deadline.Some? ==> s.form.errors.deadline.value == DeadlineRequired
    ensures s.output.Some? <==> s.form.errors == FormErrors(None, None)
    ensures s.output.Some? ==>
      s.output.value == TaskFormData(Trim(JsSpaces, f.title), Some(f.description), f.priority, f.deadline, f.labelIds)
    ensures s.form == f.(errors := s.form.errors)
  {
    var t := Trim(JsSpaces, f.title);
    var errors := FormErrors(
      if t == "" then Some(TitleRequired) else None,
      if f.deadline == "" then Some(DeadlineRequired) else None);
    var f' := f.(errors := errors);
    if errors.title.Some? || errors.deadline.Some? then Submitted(f', None)
    else Submitted(f', Some(TaskFormData(t, Some(f.description), f.priority, f.deadline, f.labelIds)))
  }

  /** Whatever the form hands on has a title that is neither blank nor
      padded, and a deadline. */
  lemma SubmittedDataIsClean(f: FormState)
    requires Submit(f).output.Some?
    ensures Submit(f).output.value.title != "" && Stripped(JsSpaces, Submit(f).output.value.title)
    ensures Submit(f).output.value.deadline != ""
  {
  }

  /** A blank title is rejected however much whitespace it holds, and both
      errors are reported together. */
  lemma BlankFormReportsBoth(f: FormState)
    requires AllSpace(JsSpaces, f.title) && f.deadline == ""
    ensures Submit(f).output.None?
    ensures Submit(f).form.errors == FormErrors(Some(TitleRequired), Some(DeadlineRequired))
  {
    TrimOfPadded(JsSpaces, f.title, [], []);
    assert f.title + [] + [] == f.title;
  }
}

=== FILE: task_model.dfy ===
/** The server's task document and its request schemas
    (`backend/app/models/task.py`): the priority enumeration, the
    document's defaults, what `TaskCreateRequest` and `TaskUpdateRequest`
    accept from a JSON body, how an update is dumped into `$set`, and the
    `_id` to `id` renaming of `dict`/`model_dump`. */
module TaskModel {
  import opened Wrappers
  import opened Text
  import opened Domain

  // ----- calendar dates -------------------------------------------------

  /** A `datetime.date`. */
  datatype Date = Date(year: nat, month: nat, day: nat)

  predicate Leap(y: nat) {
    y % 4 == 0 && (y % 100 != 0 || y % 400 == 0)
  }

  function DaysIn(y: nat, m: nat): nat
    requires 1 <= m <= 12
  {
    if m == 2 then (if Leap(y) then 29 else 28)
    else if m == 4 || m == 6 || m == 9 || m == 11 then 30
    else 31
  }

  /** A date the calendar has (years 1 to 9999, as `datetime.date`). */
  predicate ValidDate(d: Date) {
    1 <= d.year <= 9999 && 1 <= d.month <= 12 && 1 <= d.day <= DaysIn(d.year, d.month)
  }

  /** A fixed-width decimal field. */
  function Pad(n: nat, width: nat): (r: string)
    ensures |r| == width && IsDigits(r)
  {
    if width == 0 then [] else Pad(n / 10, width - 1) + [DigitChar(n % 10)]
  }

  /** `str(date)`: `YYYY-MM-DD`. */
  function DateText(d: Date): (r: string)
    ensures |r| == 10
  {
    Pad(d.year, 4) + "-" + Pad(d.month, 2) + "-" + Pad(d.day, 2)
  }

  /** Reading a date from JSON text: `YYYY-MM-DD` naming a day the calendar
      has. */
  function ParseDate(s: string): (r: Option<Date>)
    ensures r.Some? ==> ValidDate(r.value) && |s| == 10
  {
    if |s| == 10 && s[4] == '-' && s[7] == '-' && IsDigits(s[..4]) && IsDigits(s[5..7]) && IsDigits(s[8..]) then
      var d := Date(DigitsValue(s[..4]), DigitsValue(s[5..7]), DigitsValue(s[8..]));
      if ValidDate(d) then Some(d) else None
    else None
  }

  function Power10(k: nat): (r: nat)
    ensures r >= 1
  {
    if k == 0 then 1 else 10 * Power10(k - 1)
  }

  lemma {:induction false} PadValue(n: nat, width: nat)
    requires n < Power10(width)
    ensures DigitsValue(Pad(n, width)) == n
  {
    if width > 0 {
      PadValue(n / 10, width - 1);
      var p := Pad(n, width);
      assert p[..|p| - 1] == Pad(n / 10, width - 1);
    }
  }

  lemma {:induction false} PadOfValue(s: string)
    requires IsDigits(s)
    ensures Pad(DigitsValue(s), |s|) == s
  {
    if s != [] {
      var init := s[..|s| - 1];
      var last := s[|s| - 1] as int - '0' as int;
      PadOfValue(init);
      var v := DigitsValue(s);
      assert v == 10 * DigitsValue(init) + last;
      assert v / 10 == DigitsValue(init) && v % 10 == last;
      assert s == init + [s[|s| - 1]];
    }
  }

  /** The text of a calendar date reads back as that date. */
  lemma DateTextParses(d: Date)
    requires ValidDate(d)
    ensures ParseDate(DateText(d)) == Some(d)
  {
    var t := DateText(d);
    DateTextShape(d);
    DateFieldsRead(d);
    assert IsDigits(t[..4]) && IsDigits(t[5..7]) && IsDigits(t[8..]);
    assert Date(DigitsValue(t[..4]), DigitsValue(t[5..7]), DigitsValue(t[8..])) == d;
  }

  lemma DateFieldsRead(d: Date)
    requires ValidDate(d)
    ensures DigitsValue(Pad(d.year, 4)) == d.year
    ensures DigitsValue(Pad(d.month, 2)) == d.month
    ensures DigitsValue(Pad(d.day, 2)) == d.day
  {
    assert Power10(2) == 100;
    assert Power10(4) == 10000;
    assert d.day <= 31;
    PadValue(d.year, 4);
    PadValue(d.month, 2);
    PadValue(d.day, 2);
  }

  lemma DateTextShape(d: Date)
    ensures var t := DateText(d);
      t[..4] == Pad(d.year, 4) && t[4] == '-' && t[5..7] == Pad(d.month, 2) && t[7] == '-' && t[8..] == Pad(d.day, 2)
  {
    var y, m, n := Pad(d.year, 4), Pad(d.month, 2), Pad(d.day, 2);
    var t := DateText(d);
    assert t == y + "-" + m + "-" + n;
    assert t[..4] == y;
    assert t[5..7] == m;
    assert t[8..] == n;
  }

  /** Accepted date text is already in the form `str(date)` prints, so the
      deadline a client sends is the deadline it reads back. */
  lemma DateParsesBack(s: string)
    requires ParseDate(s).Some?
    ensures DateText(ParseDate(s).value) == s
  {
    PadOfValue(s[..4]);
    PadOfValue(s[5..7]);
    PadOfValue(s[8..]);
    assert s == s[..4] + "-" + s[5..7] + "-" + s[8..];
  }

  // ----- request bodies -------------------------------------------------

  /** A body member as an optional model field sees it. */
  datatype Field<T> = Unset | Null | Val(value: T)

  /** `TaskCreateRequest`: title, priority and deadline required,
      description optional; no `completed`, no `label_ids`. */
  datatype TaskCreateRequest = TaskCreateRequest(title: string, description: Option<string>, priority: Priority, deadline: Date)

  /** `TaskUpdateRequest`: every member optional. */
  datatype TaskUpdateRequest = TaskUpdateRequest(
    title: Field<string>,
    description: Field<string>,
    priority: Field<Priority>,
    deadline: Field<Date>,
    completed: Field<bool>,
    labelIds: Field<seq<Id>>)

  type Body = map<string, Wire>

  function StrValue(w: Wire): Option<string> {
    match w case WStr(s) => Some(s) case _ => None
  }

  function PriorityValue(w: Wire): Option<Priority> {
    match w case WStr(s) => ParsePriority(s) case _ => None
  }

  function DateValue(w: Wire): Option<Date> {
    match w case WStr(s) => ParseDate(s) case _ => None
  }

  function BoolValue(w: Wire): Option<bool> {
    match w case WBool(b) => Some(b) case _ => None
  }

  function ListValue(w: Wire): Option<seq<Id>> {
    match w case WStrList(xs) => Some(xs) case _ => None
  }

  /** An optional member: absent is unset, null is null, otherwise it must
      have the member's type. */
  function OptionalMember<T>(body: Body, key: string, read: Wire -> Option<T>): (r: Result<Field<T>, string>)
    ensures key !in body ==> r == Success(Unset)
    ensures key in body && body[key] == WNull ==> r == Success(Null)
    ensures key in body && body[key] != WNull && read(body[key]).Some? ==> r == Success(Val(read(body[key]).value))
    ensures r.Failure? <==> key in body && body[key] != WNull && read(body[key]).None?
  {
    if key !in body then Success(Unset)
    else if body[key] == WNull then Success(Null)
    else match read(body[key])
      case Some(v) => Success(Val(v))
      case None => Failure(key)
  }

  /** Validation of a create body; the failure names the offending member
      (the route answers 422). Members the schema does not name are
      ignored. */
  function ParseCreate(body: Body): (r: Result<TaskCreateRequest, string>)
    ensures r.Success? <==>
      ("title" in body && StrValue(body["title"]).Some?)
      && ("description" !in body || body["description"] == WNull || StrValue(body["description"]).Some?)
      && ("priority" in body && PriorityValue(body["priority"]).Some?)
      && ("deadline" in body && DateValue(body["deadline"]).Some?)
    ensures r.Success? ==> (r.value.title == StrValue(body["title"]).value
      && r.value.priority == PriorityValue(body["priority"]).value
      && r.value.deadline == DateValue(body["deadline"]).value
      && (r.value.description.Some? <==> "description" in body && body["description"] != WNull)
      && (r.value.description.Some? ==> body["description"] == WStr(r.value.description.value)))
  {
    if "title" !in body || StrValue(body["title"]).None? then Failure("title")
    else if "description" in body && body["description"] != WNull && StrValue(body["description"]).None? then Failure("description")
    else if "priority" !in body || PriorityValue(body["priority"]).None? then Failure("priority")
    else if "deadline" !in body || DateValue(body["deadline"]).None? then Failure("deadline")
    else
      var description := if "description" in body && body["description"] != WNull then StrValue(body["description"]) else None;
      Success(TaskCreateRequest(StrValue(body["title"]).value, description,
        PriorityValue(body["priority"]).value, DateValue(body["deadline"]).value))
  }

  /** Validation of an update body. */
  function ParseUpdate(body: Body): (r: Result<TaskUpdateRequest, string>)
    ensures r.Success? <==>
      OptionalMember(body, "title", StrValue).Success? && OptionalMember(body, "description", StrValue).Success?
      && OptionalMember(body, "priority", PriorityValue).Success? && OptionalMember(body, "deadline", DateValue).Success?
      && OptionalMember(body, "completed", BoolValue).Success? && OptionalMember(body, "label_ids", ListValue).Success?
    ensures r.Success? ==> r.value == TaskUpdateRequest(
      OptionalMember(body, "title", StrValue).value, OptionalMember(body, "description", StrValue).value,
      OptionalMember(body, "priority", PriorityValue).value, OptionalMember(body, "deadline", DateValue).value,
      OptionalMember(body, "completed", BoolValue).value, OptionalMember(body, "label_ids", ListValue).value)
  {
    var title := OptionalMember(body, "title", StrValue);
    var description := OptionalMember(body, "description", StrValue);
    var priority := OptionalMember(body, "priority", PriorityValue);
    var deadline := OptionalMember(body, "deadline", DateValue);
    var completed := OptionalMember(body, "completed", BoolValue);
    var labelIds := OptionalMember(body, "label_ids", ListValue);
    if title.Failure? then Failure(title.error)
    else if description.Failure? then Failure(description.error)
    else if priority.Failure? then Failure(priority.error)
    else if deadline.Failure? then Failure(deadline.error)
    else if completed.Failure? then Failure(completed.error)
    else if labelIds.Failure? then Failure(labelIds.error)
    else Success(TaskUpdateRequest(title.value, description.value, priority.value, deadline.value, completed.value, labelIds.value))
  }

  // ----- the stored document --------------------------------------------

  /** A task document as the collection holds it: its members, and the two
      timestamps (the clock reading at construction). */
  datatype TaskDoc = TaskDoc(fields: Body, createdAt: int, updatedAt: int)

  /** The `Task` model a document is read back into. */
  datatype TaskRecord = TaskRecord(
    title: string,
    description: Option<string>,
    priority: Priority,
    deadline: Date,
    completed: bool,
    labelIds: seq<Id>,
    userId: Option<string>,
    createdAt: int,
    updatedAt: int)

  function DateWire(d: Date): Wire {
    WStr(DateText(d))
  }

  /** `Task(**request.model_dump())`: the request's members, with
      `completed = false`, `label_ids = []` and `user_id = None`. */
  function NewTask(req: TaskCreateRequest, now: int): (doc: TaskDoc)
    ensures doc.fields.Keys == {"title", "description", "priority", "deadline", "completed", "label_ids", "user_id"}
    ensures doc.fields["completed"] == WBool(false) && doc.fields["label_ids"] == WStrList([])
    ensures doc.fields["user_id"] == WNull
    ensures doc.createdAt == now && doc.updatedAt == now
  {
    TaskDoc(map[
      "title" := WStr(req.title),
      "description" := (match req.description case Some(s) => WStr(s) case None => WNull),
      "priority" := WStr(PriorityText(req.priority)),
      "deadline" := DateWire(req.deadline),
      "completed" := WBool(false),
      "label_ids" := WStrList([]),
      "user_id" := WNull], now, now)
  }

  /** A member that may be absent or null. */
  function Nullable<T>(fields: Body, key: string, read: Wire -> Option<T>): Option<Option<T>> {
    if key !in fields || fields[key] == WNull then Some(None)
    else match read(fields[key]) case Some(v) => Some(Some(v)) case None => None
  }

  /** A member with a default when absent. */
  function Defaulted<T>(fields: Body, key: string, read: Wire -> Option<T>, default: T): Option<T> {
    if key !in fields then Some(default) else read(fields[key])
  }

  /** A required member. */
  function Required<T>(fields: Body, key: string, read: Wire -> Option<T>): Option<T> {
    if key !in fields then None else read(fields[key])
  }

  /** Each member of a document as the model reads it; `None` where the
      member does not validate. */
  datatype Parts = Parts(
    title: Option<string>,
    description: Option<Option<string>>,
    priority: Option<Priority>,
    deadline: Option<Date>,
    completed: Option<bool>,
    labelIds: Option<seq<Id>>,
    userId: Option<Option<string>>)

  function ReadParts(fields: Body): Parts {
    Parts(
      Required(fields, "title", StrValue),
      Nullable(fields, "description", StrValue),
      Required(fields, "priority", PriorityValue),
      Required(fields, "deadline", DateValue),
      Defaulted(fields, "completed", BoolValue, false),
      Defaulted(fields, "label_ids", ListValue, []),
      Nullable(fields, "user_id", StrValue))
  }

  function Assemble(p: Parts, createdAt: int, updatedAt: int): Option<TaskRecord> {
    if p.title.None? || p.description.None? || p.priority.None? || p.deadline.None?
      || p.completed.None? || p.labelIds.None? || p.userId.None? then None
    else
      Some(TaskRecord(p.title.value, p.description.value, p.priority.value, p.deadline.value,
        p.completed.value, p.labelIds.value, p.userId.value, createdAt, updatedAt))
  }

  /** Reading a document back into the model; `None` when it does not
      validate (the route then fails with 500). */
  function Decode(doc: TaskDoc): (r: Option<TaskRecord>)
    ensures r.Some? ==> "title" in doc.fields && doc.fields["title"] == WStr(r.value.title)
    ensures r.Some? ==> "priority" in doc.fields && doc.fields["priority"] == WStr(PriorityText(r.value.priority))
    ensures r.Some? ==> "deadline" in doc.fields && doc.fields["deadline"] == DateWire(r.value.deadline)
    ensures r.Some? ==> r.value.createdAt == doc.createdAt && r.value.updatedAt == doc.updatedAt
    ensures "title" in doc.fields && doc.fields["title"] == WNull ==> r.None?
  {
    var r := Assemble(ReadParts(doc.fields), doc.createdAt, doc.updatedAt);
    if r.Some? then
      PriorityRoundTrip(r.value.priority, doc.fields["priority"].s);
      DateParsesBack(doc.fields["deadline"].s);
      r
    else r
  }

  /** A freshly built task reads back as its request with the defaults. */
  lemma NewTaskDecodes(req: TaskCreateRequest, now: int)
    requires ValidDate(req.deadline)
    ensures Decode(NewTask(req, now)) ==
      Some(TaskRecord(req.title, req.description, req.priority, req.deadline, false, [], None, now, now))
  {
    var doc := NewTask(req, now);
    DateTextParses(req.deadline);
    PriorityRoundTrip(req.priority, "");
    assert ReadParts(doc.fields) == Parts(Some(req.title), Some(req.description), Some(req.priority),
      Some(req.deadline), Some(false), Some([]), Some(None));
    DecodeByParts(doc);
  }

  // ----- updates --------------------------------------------------------

  /** Add a member to a dump: `keepNull` says whether a null member is
      dumped. */
  function PutField<T>(d: Body, f: Field<T>, key: string, w: T -> Wire, keepNull: bool): Body {
    match f
    case Unset => d
    case Null => if keepNull then d[key := WNull] else d
    case Val(v) => d[key := w(v)]
  }

  function StrWire(s: string): Wire { WStr(s) }
  function PriorityWire(p: Priority): Wire { WStr(PriorityText(p)) }
  function BoolWire(b: bool): Wire { WBool(b) }
  function ListWire(xs: seq<Id>): Wire { WStrList(xs) }

  function DumpWith(u: TaskUpdateRequest, keepNull: bool): Body {
    var d := PutField(map[], u.title, "title", StrWire, keepNull);
    var d := PutField(d, u.description, "description", StrWire, keepNull);
    var d := PutField(d, u.priority, "priority", PriorityWire, keepNull);
    var d := PutField(d, u.deadline, "deadline", DateWire, keepNull);
    var d := PutField(d, u.completed, "completed", BoolWire, keepNull);
    PutField(d, u.labelIds, "label_ids", ListWire, keepNull)
  }

  /** The dump with nulls kept, two members at a time. */
  lemma DumpWithNullsText(u: TaskUpdateRequest)
    ensures var d := DumpWith(u, true);
      ("title" in d <==> !u.title.Unset?) && (u.title.Null? ==> d["title"] == WNull)
      && (u.title.Val? ==> d["title"] == WStr(u.title.value))
      && ("description" in d <==> !u.description.Unset?) && (u.description.Null? ==> d["description"] == WNull)
      && (u.description.Val? ==> d["description"] == WStr(u.description.value))
  {
  }

  lemma DumpWithNullsSchedule(u: TaskUpdateRequest)
    ensures var d := DumpWith(u, true);
      ("priority" in d <==> !u.priority.Unset?) && (u.priority.Null? ==> d["priority"] == WNull)
      && (u.priority.Val? ==> d["priority"] == WStr(PriorityText(u.priority.value)))
      && ("deadline" in d <==> !u.deadline.Unset?) && (u.deadline.Null? ==> d["deadline"] == WNull)
      && (u.deadline.Val? ==> d["deadline"] == DateWire(u.deadline.value))
  {
  }

  lemma DumpWithNullsState(u: TaskUpdateRequest)
    ensures var d := DumpWith(u, true);
      ("completed" in d <==> !u.completed.Unset?) && (u.completed.Null? ==> d["completed"] == WNull)
      && (u.completed.Val? ==> d["completed"] == WBool(u.completed.value))
      && ("label_ids" in d <==> !u.labelIds.Unset?) && (u.labelIds.Null? ==> d["label_ids"] == WNull)
      && (u.labelIds.Val? ==> d["label_ids"] == WStrList(u.labelIds.value))
      && d.Keys <= {"title", "description", "priority", "deadline", "completed", "label_ids"}
  {
  }

  /** `model_dump(exclude_unset=True)` as written: every member the body
      named, including those it set to null. */
  function DumpAsWritten(u: TaskUpdateRequest): (d: Body)
    ensures ("title" in d <==> !u.title.Unset?) && (u.title.Null? ==> d["title"] == WNull)
    ensures u.title.Val? ==> d["title"] == WStr(u.title.value)
    ensures ("description" in d <==> !u.description.Unset?) && (u.description.Null? ==> d["description"] == WNull)
    ensures u.description.Val? ==> d["description"] == WStr(u.description.value)
    ensures ("priority" in d <==> !u.priority.Unset?) && (u.priority.Null? ==> d["priority"] == WNull)
    ensures u.priority.Val? ==> d["priority"] == WStr(PriorityText(u.priority.value))
    ensures ("deadline" in d <==> !u.deadline.Unset?) && (u.deadline.Null? ==> d["deadline"] == WNull)
    ensures u.deadline.Val? ==> d["deadline"] == DateWire(u.deadline.value)
    ensures ("completed" in d <==> !u.completed.Unset?) && (u.completed.Null? ==> d["completed"] == WNull)
    ensures u.completed.Val? ==> d["completed"] == WBool(u.completed.value)
    ensures ("label_ids" in d <==> !u.labelIds.Unset?) && (u.labelIds.Null? ==> d["label_ids"] == WNull)
    ensures u.labelIds.Val? ==> d["label_ids"] == WStrList(u.labelIds.value)
    ensures d.Keys <= {"title", "description", "priority", "deadline", "completed", "label_ids"}
  {
    DumpWithNullsText(u);
    DumpWithNullsSchedule(u);
    DumpWithNullsState(u);
    DumpWith(u, true)
  }

  /** The dump the route's comment describes: only members given a value,
      null ones excluded too. */
  function Dump(u: TaskUpdateRequest): (d: Body)
    ensures ("title" in d <==> u.title.Val?) && (u.title.Val? ==> d["title"] == WStr(u.title.value))
    ensures ("description" in d <==> u.description.Val?) && (u.description.Val? ==> d["description"] == WStr(u.description.value))
    ensures ("priority" in d <==> u.priority.Val?) && (u.priority.Val? ==> d["priority"] == WStr(PriorityText(u.priority.value)))
    ensures ("deadline" in d <==> u.deadline.Val?) && (u.deadline.Val? ==> d["deadline"] == DateWire(u.deadline.value))
    ensures ("completed" in d <==> u.completed.Val?) && (u.completed.Val? ==> d["completed"] == WBool(u.completed.value))
    ensures ("label_ids" in d <==> u.labelIds.Val?) && (u.labelIds.Val? ==> d["label_ids"] == WStrList(u.labelIds.value))
    ensures d.Keys <= {"title", "description", "priority", "deadline", "completed", "label_ids"}
  {
    DumpWith(u, false)
  }

  /** `$set` of the as-written dump. */
  function ApplyAsWritten(doc: TaskDoc, u: TaskUpdateRequest): TaskDoc {
    doc.(fields := doc.fields + DumpAsWritten(u))
  }

  /** `$set` of the intended dump. */
  function Apply(doc: TaskDoc, u: TaskUpdateRequest): (r: TaskDoc)
    ensures r.createdAt == doc.createdAt && r.updatedAt == doc.updatedAt
    ensures r.fields.Keys == doc.fields.Keys + Dump(u).Keys
    ensures forall k :: k in doc.fields && k !in Dump(u) ==> r.fields[k] == doc.fields[k]
    ensures forall k :: k in Dump(u) ==> r.fields[k] == Dump(u)[k]
  {
    doc.(fields := doc.fields + Dump(u))
  }

  /** The value a field keeps or takes. */
  function Updated<T>(f: Field<T>, before: T): T {
    match f case Val(v) => v case _ => before
  }

  /** A document that validates still validates after the intended update,
      and reads back with exactly the given members replaced. */
  lemma ApplyKeepsValid(doc: TaskDoc, u: TaskUpdateRequest)
    requires Decode(doc).Some?
    requires u.deadline.Val? ==> ValidDate(u.deadline.value)
    ensures Decode(Apply(doc, u)).Some?
    ensures var t := Decode(doc).value;
      Decode(Apply(doc, u)).value == t.(
        title := Updated(u.title, t.title),
        description := if u.description.Val? then Some(u.description.value) else t.description,
        priority := Updated(u.priority, t.priority),
        deadline := Updated(u.deadline, t.deadline),
        completed := Updated(u.completed, t.completed),
        labelIds := Updated(u.labelIds, t.labelIds))
  {
    DecodeByParts(doc);
    DecodeByParts(Apply(doc, u));
    ApplyParts(doc.fields, u);
  }

  lemma DecodeByParts(doc: TaskDoc)
    ensures Decode(doc) == Assemble(ReadParts(doc.fields), doc.createdAt, doc.updatedAt)
  {
  }

  /** Every member of a document has the type `Task` declares: title,
      priority and deadline present and readable, the optional members
      absent or of their type (description and user_id may also be
      null). */
  predicate WellTyped(fields: Body) {
    && "title" in fields && fields["title"].WStr?
    && "priority" in fields && PriorityValue(fields["priority"]).Some?
    && "deadline" in fields && DateValue(fields["deadline"]).Some?
    && ("description" in fields ==> fields["description"].WNull? || fields["description"].WStr?)
    && ("completed" in fields ==> fields["completed"].WBool?)
    && ("label_ids" in fields ==> fields["label_ids"].WStrList?)
    && ("user_id" in fields ==> fields["user_id"].WNull? || fields["user_id"].WStr?)
  }

  /** A document reads back exactly when every member is well typed. */
  lemma DecodeIff(doc: TaskDoc)
    ensures Decode(doc).Some? <==> WellTyped(doc.fields)
  {
    DecodeByParts(doc);
  }

  /** A well-typed document reads back with its members' values, a missing
      or null description and user_id as none, a missing `completed` as
      false and missing `label_ids` as no labels. */
  lemma DecodeWhenWellTyped(doc: TaskDoc)
    requires WellTyped(doc.fields)
    ensures Decode(doc) == Some(TaskRecord(
      doc.fields["title"].s,
      if "description" in doc.fields && doc.fields["description"].WStr? then Some(doc.fields["description"].s) else None,
      PriorityValue(doc.fields["priority"]).value,
      DateValue(doc.fields["deadline"]).value,
      "completed" in doc.fields && doc.fields["completed"].b,
      if "label_ids" in doc.fields then doc.fields["label_ids"].items else [],
      if "user_id" in doc.fields && doc.fields["user_id"].WStr? then Some(doc.fields["user_id"].s) else None,
      doc.createdAt, doc.updatedAt))
  {
    DecodeByParts(doc);
  }

  /** How the intended `$set` changes each member as the model reads it. */
  lemma ApplyParts(f: Body, u: TaskUpdateRequest)
    requires var p := ReadParts(f);
      p.title.Some? && p.description.Some? && p.priority.Some? && p.deadline.Some?
      && p.completed.Some? && p.labelIds.Some? && p.userId.Some?
    requires u.deadline.Val? ==> ValidDate(u.deadline.value)
    ensures var p := ReadParts(f);
      ReadParts(f + Dump(u)) == Parts(
        Some(Updated(u.title, p.title.value)),
        Some(if u.description.Val? then Some(u.description.value) else p.description.value),
        Some(Updated(u.priority, p.priority.value)),
        Some(Updated(u.deadline, p.deadline.value)),
        Some(Updated(u.completed, p.completed.value)),
        Some(Updated(u.labelIds, p.labelIds.value)),
        p.userId)
  {
    ApplyRequiredParts(f, u);
    ApplyOptionalParts(f, u);
  }

  lemma ApplyRequiredParts(f: Body, u: TaskUpdateRequest)
    requires var p := ReadParts(f); p.title.Some? && p.priority.Some? && p.deadline.Some?
    requires u.deadline.Val? ==> ValidDate(u.deadline.value)
    ensures var p := ReadParts(f); var q := ReadParts(f + Dump(u));
      q.title == Some(Updated(u.title, p.title.value))
      && q.priority == Some(Updated(u.priority, p.priority.value))
      && q.deadline == Some(Updated(u.deadline, p.deadline.value))
  {
    var d := Dump(u);
    var p := ReadParts(f);
    if u.priority.Val? {
      PriorityRoundTrip(u.priority.value, "");
    }
    if u.deadline.Val? {
      DateTextParses(u.deadline.value);
    }
    SetRequired(f, d, "title", StrValue, u.title, StrWire, p.title.value);
    SetRequired(f, d, "priority", PriorityValue, u.priority, PriorityWire, p.priority.value);
    SetRequired(f, d, "deadline", DateValue, u.deadline, DateWire, p.deadline.value);
  }

  lemma ApplyOptionalParts(f: Body, u: TaskUpdateRequest)
    requires var p := ReadParts(f);
      p.description.Some? && p.completed.Some? && p.labelIds.Some? && p.userId.Some?
    ensures var p := ReadParts(f); var q := ReadParts(f + Dump(u));
      q.description == Some(if u.description.Val? then Some(u.description.value) else p.description.value)
      && q.completed == Some(Updated(u.completed, p.completed.value))
      && q.labelIds == Some(Updated(u.labelIds, p.labelIds.value))
      && q.userId == p.userId
  {
    var d := Dump(u);
    var p := ReadParts(f);
    SetDefaulted(f, d, "completed", BoolValue, u.completed, BoolWire, false, p.completed.value);
    SetDefaulted(f, d, "label_ids", ListValue, u.labelIds, ListWire, [], p.labelIds.value);
    SetNullable(f, d, "description", StrValue, u.description, StrWire, p.description.value);
    SetNullable(f, d, "user_id", StrValue, Unset, StrWire, p.userId.value);
  }

  /** A required member after a `$set` holds the new value or its old one. */
  lemma SetRequired<T>(f: Body, d: Body, key: string, read: Wire -> Option<T>, v: Field<T>, w: T -> Wire, before: T)
    requires Required(f, key, read) == Some(before)
    requires key in d <==> v.Val?
    requires v.Val? ==> d[key] == w(v.value) && read(w(v.value)) == Some(v.value)
    ensures Required(f + d, key, read) == Some(Updated(v, before))
  {
  }

  lemma SetDefaulted<T>(f: Body, d: Body, key: string, read: Wire -> Option<T>, v: Field<T>, w: T -> Wire, default: T, before: T)
    requires Defaulted(f, key, read, default) == Some(before)
    requires key in d <==> v.Val?
    requires v.Val? ==> d[key] == w(v.value) && read(w(v.value)) == Some(v.value)
    ensures Defaulted(f + d, key, read, default) == Some(Updated(v, before))
  {
  }

  lemma SetNullable<T>(f: Body, d: Body, key: string, read: Wire -> Option<T>, v: Field<T>, w: T -> Wire, before: Option<T>)
    requires Nullable(f, key, read) == Some(before)
    requires key in d <==> v.Val?
    requires v.Val? ==> d[key] == w(v.value) && w(v.value) != WNull && read(w(v.value)) == Some(v.value)
    ensures Nullable(f + d, key, read) == Some(if v.Val? then Some(v.value) else before)
  {
  }

  /** A null title is kept by the as-written dump, and the document no
      longer reads back as a task. */
  lemma NullTitleCorrupts(doc: TaskDoc)
    ensures Decode(ApplyAsWritten(doc, TaskUpdateRequest(Null, Unset, Unset, Unset, Unset, Unset))).None?
  {
    var u := TaskUpdateRequest(Null, Unset, Unset, Unset, Unset, Unset);
    assert DumpAsWritten(u) == map["title" := WNull];
  }

  /** The two dumps agree on every body without nulls, which is every body
      the web client sends. */
  lemma DumpsAgreeWithoutNulls(u: TaskUpdateRequest)
    requires !u.title.Null? && !u.description.Null? && !u.priority.Null?
    requires !u.deadline.Null? && !u.completed.Null? && !u.labelIds.Null?
    ensures DumpAsWritten(u) == Dump(u)
  {
  }

  // ----- ids ------------------------------------------------------------

  /** `dict`/`model_dump`: the `_id` member becomes `id`, holding `str` of
      its value (the ObjectId's text, or "None" for a document not yet
      saved); every other member is left as it is. */
  function RenameId(data: Body): (r: Body)
    ensures "_id" !in r
    ensures "_id" in data ==> "id" in r && r["id"] == WStr(PyStr(data["_id"]))
    ensures "_id" in data && data["_id"].WOid? ==> r["id"] == WStr(data["_id"].hex)
    ensures "_id" in data && data["_id"] == WNull ==> r["id"] == WStr("None")
    ensures "_id" !in data ==> r == data
    ensures forall k :: k in data && k != "_id" && k != "id" ==> k in r && r[k] == data[k]
    ensures r.Keys == if "_id" in data then data.Keys - {"_id"} + {"id"} else data.Keys
  {
    if "_id" in data then (data - {"_id"})["id" := WStr(PyStr(data["_id"]))] else data
  }

  /** Python's `str` of a value: an ObjectId gives its hexadecimal text,
      `None` gives "None", a boolean "True" or "False", and a list of
      strings its bracketed, quoted rendering. */
  function PyStr(w: Wire): string {
    match w
    case WOid(h) => h
    case WNull => "None"
    case WStr(s) => s
    case WBool(b) => if b then "True" else "False"
    case WStrList(items) => "[" + QuotedItems(items) + "]"
    case WOther => ""
  }

  /** The items of a list of strings as Python prints them, quoted and
      separated by ", ". */
  function QuotedItems(items: seq<string>): string {
    if items == [] then ""
    else if |items| == 1 then "'" + items[0] + "'"
    else "'" + items[0] + "', " + QuotedItems(items[1..])
  }

  /** Renaming is undone by moving `id` back, for data that had an `_id`
      and no `id` of its own. */
  lemma RenameIdRoundTrip(data: Body)
    requires "_id" in data && data["_id"].WOid? && "id" !in data
    ensures var r := RenameId(data);
      (r - {"id"})["_id" := WOid(r["id"].s)] == data
  {
    var r := RenameId(data);
    assert (r - {"id"})["_id" := WOid(r["id"].s)].Keys == data.Keys;
  }
}

=== FILE: tasks_routes.dfy ===
/** The tasks router (`backend/app/routes/tasks_routes.py`) over the
    in-memory store. Every route that names a task first reads it back
    through the `Task` model; a stored document that no longer validates
    makes that read, and so the route, fail with 500. */
module TasksRoutes {
  import opened Wrappers
  import opened Text
  import opened Domain
  import opened Store
  import opened Listing
  import opened TaskModel
  import Api

  const NotFound := "Task not found"
  /** FastAPI's answer to a request it could not validate. */
  const Invalid := "Unprocessable Entity"
  /** FastAPI's answer to an exception the route did not catch. */
  const Crashed := "Internal Server Error"
  const DefaultLimit := 50

  /** The record a freshly created task is answered with. */
  function Created(req: TaskCreateRequest, labelIds: seq<Id>, now: int): TaskRecord {
    TaskRecord(req.title, req.description, req.priority, req.deadline, false, labelIds, None, now, now)
  }

  // ----- create ---------------------------------------------------------

  /** `create_task(task_data)` as written: the request schema has no
      `label_ids`, so whatever labels the body names are dropped and the
      task is stored with none. `newId` is the ObjectId the store assigns
      and `now` the clock reading. */
  function CreateTask(db: Db, body: Body, newId: Id, now: int): (r: Step<(Id, TaskRecord)>)
    requires newId !in db.tasks
    ensures r.db.labels == db.labels
    ensures ParseCreate(body).Failure? ==> r == Step(db, Refused(422, Invalid))
    ensures ParseCreate(body).Success? ==>
      (r.reply == Answer(201, (newId, Created(ParseCreate(body).value, [], now)))
       && r.db.tasks == db.tasks[newId := NewTask(ParseCreate(body).value, now)]
       && Decode(r.db.tasks[newId]) == Some(r.reply.body.1))
  {
    match ParseCreate(body)
    case Failure(_) => Step(db, Refused(422, Invalid))
    case Success(req) =>
      NewTaskDecodes(req, now);
      Step(db.(tasks := db.tasks[newId := NewTask(req, now)]), Answer(201, (newId, Created(req, [], now))))
  }

  /** The create body with the label ids the client sends: absent means
      none, anything but a list of strings is refused. */
  function ParseCreateWithLabels(body: Body): (r: Result<(TaskCreateRequest, seq<Id>), string>)
    ensures r.Success? <==> ParseCreate(body).Success? && Defaulted(body, "label_ids", ListValue, []).Some?
    ensures r.Success? ==> r.value.0 == ParseCreate(body).value
    ensures r.Success? ==>
      ("label_ids" in body ==> body["label_ids"] == WStrList(r.value.1)) && ("label_ids" !in body ==> r.value.1 == [])
  {
    match ParseCreate(body)
    case Failure(e) => Failure(e)
    case Success(req) =>
      match Defaulted(body, "label_ids", ListValue, [])
      case None => Failure("label_ids")
      case Some(ids) => Success((req, ids))
  }

  /** The document a create stores once it keeps the label ids. */
  function NewTaskWithLabels(req: TaskCreateRequest, labelIds: seq<Id>, now: int): TaskDoc {
    var doc := NewTask(req, now);
    doc.(fields := doc.fields["label_ids" := WStrList(labelIds)])
  }

  lemma NewTaskWithLabelsDecodes(req: TaskCreateRequest, labelIds: seq<Id>, now: int)
    requires ValidDate(req.deadline)
    ensures Decode(NewTaskWithLabels(req, labelIds, now)) == Some(Created(req, labelIds, now))
  {
    var doc := NewTaskWithLabels(req, labelIds, now);
    NewTaskDecodes(req, now);
    DecodeByParts(NewTask(req, now));
    DecodeByParts(doc);
    assert ReadParts(doc.fields) == ReadParts(NewTask(req, now).fields).(labelIds := Some(labelIds));
  }

  /** `create_task` as it is evidently meant: the task keeps the label ids
      it was created with. */
  function CreateTaskKeepingLabels(db: Db, body: Body, newId: Id, now: int): (r: Step<(Id, TaskRecord)>)
    requires newId !in db.tasks
    ensures r.db.labels == db.labels
    ensures ParseCreateWithLabels(body).Failure? ==> r == Step(db, Refused(422, Invalid))
    ensures ParseCreateWithLabels(body).Success? ==>
      (var (req, ids) := ParseCreateWithLabels(body).value;
       r.reply == Answer(201, (newId, Created(req, ids, now)))
       && r.db.tasks == db.tasks[newId := NewTaskWithLabels(req, ids, now)]
       && Decode(r.db.tasks[newId]) == Some(r.reply.body.1))
  {
    match ParseCreateWithLabels(body)
    case Failure(_) => Step(db, Refused(422, Invalid))
    case Success((req, ids)) =>
      NewTaskWithLabelsDecodes(req, ids, now);
      Step(db.(tasks := db.tasks[newId := NewTaskWithLabels(req, ids, now)]), Answer(201, (newId, Created(req, ids, now))))
  }

  /** The web client's create body is accepted exactly when its deadline
      is a calendar date in `YYYY-MM-DD` form, and then carries the form's
      members unchanged. */
  lemma ClientCreateParses(data: TaskFormData)
    ensures ParseCreate(Api.CreateTaskBody(data)).Success? <==> ParseDate(data.deadline).Some?
    ensures ParseCreate(Api.CreateTaskBody(data)).Success? ==>
      ParseCreate(Api.CreateTaskBody(data)).value
        == TaskCreateRequest(data.title, data.description, data.priority, ParseDate(data.deadline).value)
    ensures ParseCreateWithLabels(Api.CreateTaskBody(data)).Success? <==> ParseDate(data.deadline).Some?
    ensures ParseCreateWithLabels(Api.CreateTaskBody(data)).Success? ==>
      ParseCreateWithLabels(Api.CreateTaskBody(data)).value.1 == data.labelIds
  {
    PriorityRoundTrip(data.priority, "");
  }

  /** Labels chosen in the task form are lost on creation: the client sends
      them, the route as written stores and answers an empty list, and the
      corrected route keeps them. */
  lemma CreateDropsLabels(db: Db, data: TaskFormData, newId: Id, now: int)
    requires newId !in db.tasks && ParseDate(data.deadline).Some? && data.labelIds != []
    ensures var body := Api.CreateTaskBody(data);
      body["label_ids"] == WStrList(data.labelIds)
      && CreateTask(db, body, newId, now).reply.body.1.labelIds == []
      && Decode(CreateTask(db, body, newId, now).db.tasks[newId]).value.labelIds == []
      && CreateTaskKeepingLabels(db, body, newId, now).reply.body.1.labelIds == data.labelIds
      && Decode(CreateTaskKeepingLabels(db, body, newId, now).db.tasks[newId]).value.labelIds == data.labelIds
  {
    ClientCreateParses(data);
  }

  // ----- read -----------------------------------------------------------

  /** `get_task(task_id)`. */
  function GetTask(db: Db, taskId: string): (r: Reply<(Id, TaskRecord)>)
    ensures !IsObjectId(taskId) ==> r == Refused(422, Invalid)
    ensures IsObjectId(taskId) && StoredId(taskId) !in db.tasks ==> r == Refused(404, NotFound)
    ensures r.Answer? <==>
      IsObjectId(taskId) && StoredId(taskId) in db.tasks && Decode(db.tasks[StoredId(taskId)]).Some?
    ensures r.Answer? ==>
      r == Answer(200, (StoredId(taskId), Decode(db.tasks[StoredId(taskId)]).value))
    ensures !r.Answer? ==> r.Refused? && r.status in {404, 422, 500}
  {
    if !IsObjectId(taskId) then Refused(422, Invalid)
    else
      var id := StoredId(taskId);
      if id !in db.tasks then Refused(404, NotFound)
      else match Decode(db.tasks[id])
        case None => Refused(500, Crashed)
        case Some(t) => Answer(200, (id, t))
  }

  /** `list_tasks(limit)`: the query picks the newest tasks, at most
      `limit` of them (50 when the query does not say), and the answer
      reads each back; it fails with 500 exactly when one of the picked
      tasks does not validate. `picked` is the query's selection. */
  method ListTasks(db: Db, limit: Option<int>) returns (r: Reply<seq<(Id, TaskRecord)>>, picked: seq<Id>)
    ensures |picked| == Taken(limit.GetOr(DefaultLimit), |db.tasks|)
    ensures forall i :: 0 <= i < |picked| ==> picked[i] in db.tasks
    ensures forall i, j :: 0 <= i < j < |picked| ==>
      picked[i] != picked[j] && db.tasks[picked[i]].createdAt >= db.tasks[picked[j]].createdAt
    ensures forall i, id :: 0 <= i < |picked| && id in db.tasks && id !in picked ==>
      db.tasks[picked[i]].createdAt >= db.tasks[id].createdAt
    ensures r.Answer? <==> forall i :: 0 <= i < |picked| ==> Decode(db.tasks[picked[i]]).Some?
    ensures !r.Answer? ==> r == Refused(500, Crashed)
    ensures r.Answer? ==> r.status == 200 && |r.body| == |picked|
    ensures r.Answer? ==> forall i :: 0 <= i < |picked| ==> r.body[i] == (picked[i], Decode(db.tasks[picked[i]]).value)
    ensures (forall id :: id in db.tasks ==> Decode(db.tasks[id]).Some?) ==> r.Answer?
  {
    var created := map id | id in db.tasks :: db.tasks[id].createdAt;
    assert created.Keys == db.tasks.Keys;
    assert |created| == |db.tasks| by {
      assert |created.Keys| == |db.tasks.Keys|;
    }
    picked := SelectOrdered(created, true, limit.GetOr(DefaultLimit));
    if exists i :: 0 <= i < |picked| && Decode(db.tasks[picked[i]]).None? {
      return Refused(500, Crashed), picked;
    }
    var body := seq(|picked|, i requires 0 <= i < |picked| => (picked[i], Decode(db.tasks[picked[i]]).value));
    r := Answer(200, body);
  }

  // ----- update ---------------------------------------------------------

  /** The shared shape of `update_task(task_id, task_update)`, with the
      `$set` step as a parameter: the path and the body are validated
      first, then the task is read, updated and read back. */
  function UpdateWith(db: Db, taskId: string, body: Body, write: (TaskDoc, TaskUpdateRequest) -> TaskDoc): (r: Step<(Id, TaskRecord)>)
    ensures r.db.labels == db.labels
    ensures !IsObjectId(taskId) || ParseUpdate(body).Failure? ==> r == Step(db, Refused(422, Invalid))
    ensures IsObjectId(taskId) && ParseUpdate(body).Success? && StoredId(taskId) !in db.tasks ==>
      r == Step(db, Refused(404, NotFound))
    ensures (IsObjectId(taskId) && ParseUpdate(body).Success? && StoredId(taskId) in db.tasks
             && Decode(db.tasks[StoredId(taskId)]).None?) ==> r == Step(db, Refused(500, Crashed))
    ensures r.db != db ==>
      IsObjectId(taskId) && ParseUpdate(body).Success? && StoredId(taskId) in db.tasks
      && Decode(db.tasks[StoredId(taskId)]).Some?
      && r.db.tasks == db.tasks[StoredId(taskId) := write(db.tasks[StoredId(taskId)], ParseUpdate(body).value)]
    ensures (IsObjectId(taskId) && ParseUpdate(body).Success? && StoredId(taskId) in db.tasks
             && Decode(db.tasks[StoredId(taskId)]).Some?) ==>
      r.db == db.(tasks := db.tasks[StoredId(taskId) := write(db.tasks[StoredId(taskId)], ParseUpdate(body).value)])
      && r.reply == GetTask(r.db, taskId)
    ensures r.reply.Answer? ==> r.reply == GetTask(r.db, taskId)
  {
    if !IsObjectId(taskId) || ParseUpdate(body).Failure? then Step(db, Refused(422, Invalid))
    else
      var id := StoredId(taskId);
      if id !in db.tasks then Step(db, Refused(404, NotFound))
      else if Decode(db.tasks[id]).None? then Step(db, Refused(500, Crashed))
      else
        var doc := write(db.tasks[id], ParseUpdate(body).value);
        var db' := db.(tasks := db.tasks[id := doc]);
        Step(db', GetTask(db', taskId))
  }

  /** `update_task` as written: `model_dump(exclude_unset=True)` keeps the
      members a body sets to null, and `$set` stores them. */
  function UpdateTask(db: Db, taskId: string, body: Body): Step<(Id, TaskRecord)> {
    UpdateWith(db, taskId, body, ApplyAsWritten)
  }

  /** `update_task` as its comment describes it: members set to null are
      left out of the `$set` as well. */
  function UpdateTaskExcludingNulls(db: Db, taskId: string, body: Body): Step<(Id, TaskRecord)> {
    UpdateWith(db, taskId, body, Apply)
  }

  /** The corrected update never breaks a task: an accepted body on a task
      that reads back answers 200 with exactly the given members replaced,
      and the stored task reads back as that answer. */
  lemma UpdateExcludingNullsSucceeds(db: Db, taskId: string, body: Body)
    requires IsObjectId(taskId) && StoredId(taskId) in db.tasks && Decode(db.tasks[StoredId(taskId)]).Some?
    requires ParseUpdate(body).Success?
    ensures var r := UpdateTaskExcludingNulls(db, taskId, body);
      var t := Decode(db.tasks[StoredId(taskId)]).value;
      var u := ParseUpdate(body).value;
      r.reply == Answer(200, (StoredId(taskId), t.(
        title := Updated(u.title, t.title),
        description := if u.description.Val? then Some(u.description.value) else t.description,
        priority := Updated(u.priority, t.priority),
        deadline := Updated(u.deadline, t.deadline),
        completed := Updated(u.completed, t.completed),
        labelIds := Updated(u.labelIds, t.labelIds))))
      && GetTask(r.db, taskId) == r.reply
  {
    var u := ParseUpdate(body).value;
    var id := StoredId(taskId);
    assert u.deadline.Val? ==> ValidDate(u.deadline.value) by {
      if u.deadline.Val? {
        assert OptionalMember(body, "deadline", DateValue).value == u.deadline;
      }
    }
    ApplyKeepsValid(db.tasks[id], u);
  }

  /** A body that sets the title to null, as written: the update stores the
      null and answers 500, and from then on reading or deleting the task
      answers 500 too. The corrected update answers 200 and keeps the
      title. */
  lemma NullTitleBreaksTask(db: Db, taskId: string)
    requires IsObjectId(taskId) && StoredId(taskId) in db.tasks && Decode(db.tasks[StoredId(taskId)]).Some?
    ensures var r := UpdateTask(db, taskId, map["title" := WNull]);
      r.reply == Refused(500, Crashed) && r.db != db
      && GetTask(r.db, taskId) == Refused(500, Crashed)
      && DeleteTask(r.db, taskId) == Step(r.db, Refused(500, Crashed))
    ensures var r := UpdateTaskExcludingNulls(db, taskId, map["title" := WNull]);
      r.reply.Answer? && r.reply.body.1.title == Decode(db.tasks[StoredId(taskId)]).value.title
  {
    var body := map["title" := WNull];
    var u := TaskUpdateRequest(Null, Unset, Unset, Unset, Unset, Unset);
    assert ParseUpdate(body) == Success(u);
    var id := StoredId(taskId);
    NullTitleCorrupts(db.tasks[id]);
    var broken := ApplyAsWritten(db.tasks[id], u);
    assert broken.fields["title"] == WNull;
    assert broken != db.tasks[id];
    UpdateExcludingNullsSucceeds(db, taskId, body);
  }

  /** The bodies the web client sends never hold a null, so for them the
      route as written and the corrected one behave alike. */
  lemma ClientPatchesAgree(db: Db, taskId: string, p: Api.TaskPatch)
    ensures UpdateTask(db, taskId, Api.UpdateTaskBody(p)) == UpdateTaskExcludingNulls(db, taskId, Api.UpdateTaskBody(p))
  {
    var body := Api.UpdateTaskBody(p);
    if ParseUpdate(body).Success? {
      var u := ParseUpdate(body).value;
      DumpsAgreeWithoutNulls(u);
      forall doc: TaskDoc ensures ApplyAsWritten(doc, u) == Apply(doc, u) {
      }
    }
  }

  // ----- delete ---------------------------------------------------------

  /** `delete_task(task_id)`. */
  function DeleteTask(db: Db, taskId: string): (r: Step<()>)
    ensures r.db.labels == db.labels
    ensures !IsObjectId(taskId) ==> r == Step(db, Refused(422, Invalid))
    ensures IsObjectId(taskId) && StoredId(taskId) !in db.tasks ==> r == Step(db, Refused(404, NotFound))
    ensures r.reply == NoBody(204) <==>
      IsObjectId(taskId) && StoredId(taskId) in db.tasks && Decode(db.tasks[StoredId(taskId)]).Some?
    ensures r.reply == NoBody(204) ==> r.db.tasks == db.tasks - {StoredId(taskId)}
    ensures r.reply != NoBody(204) ==> r.db == db
  {
    if !IsObjectId(taskId) then Step(db, Refused(422, Invalid))
    else
      var id := StoredId(taskId);
      if id !in db.tasks then Step(db, Refused(404, NotFound))
      else if Decode(db.tasks[id]).None? then Step(db, Refused(500, Crashed))
      else Step(db.(tasks := db.tasks - {id}), NoBody(204))
  }

  /** A deleted task is gone: reading it, under its id in either letter
      case, answers 404. */
  lemma GetAfterDelete(db: Db, taskId: string, sameId: string)
    requires DeleteTask(db, taskId).reply == NoBody(204)
    requires IsObjectId(sameId) && StoredId(sameId) == StoredId(taskId)
    ensures GetTask(DeleteTask(db, taskId).db, sameId) == Refused(404, NotFound)
  {
  }

  /** Deleting a freshly created task restores the store. */
  lemma DeleteUndoesCreate(db: Db, body: Body, newId: Id, now: int)
    requires newId !in db.tasks && ParseCreate(body).Success?
    requires IsObjectId(newId) && IsLower(newId)
    ensures var created := CreateTask(db, body, newId, now).db;
      DeleteTask(created, newId) == Step(db, NoBody(204))
  {
    StoredIdOfStored(newId);
    var created := CreateTask(db, body, newId, now).db;
    assert created.tasks - {newId} == db.tasks;
  }
}

=== FILE: text.dfy ===
/** Text primitives the system relies on: whitespace trimming as done by
    JavaScript's `String.prototype.trim` and Python's `str.strip`, ASCII
    lower-casing, the label-name key `normalize` built from them, and the
    decimal rendering of an HTTP status code. */
module Text {

  /** Whitespace removed by JavaScript `trim`: the WhiteSpace and
      LineTerminator code points of ECMAScript. */
  const JsSpaces: set<char> := {
    '\t', '\n', '\U{B}', '\U{C}', '\r', ' ', '\U{A0}', '\U{1680}',
    '\U{2000}', '\U{2001}', '\U{2002}', '\U{2003}', '\U{2004}', '\U{2005}',
    '\U{2006}', '\U{2007}', '\U{2008}', '\U{2009}', '\U{200A}',
    '\U{2028}', '\U{2029}', '\U{202F}', '\U{205F}', '\U{3000}', '\U{FEFF}'
  }

  /** Whitespace removed by Python `str.strip()` with no argument: the code
      points for which `str.isspace` holds. */
  const PySpaces: set<char> := {
    '\t', '\n', '\U{B}', '\U{C}', '\r', '\U{1C}', '\U{1D}', '\U{1E}', '\U{1F}',
    ' ', '\U{85}', '\U{A0}', '\U{1680}',
    '\U{2000}', '\U{2001}', '\U{2002}', '\U{2003}', '\U{2004}', '\U{2005}',
    '\U{2006}', '\U{2007}', '\U{2008}', '\U{2009}', '\U{200A}',
    '\U{2028}', '\U{2029}', '\U{202F}', '\U{205F}', '\U{3000}'
  }

  predicate IsLetter(c: char) {
    ('A' <= c <= 'Z') || ('a' <= c <= 'z')
  }

  /** A whitespace set in the sense used here: it contains no ASCII letter,
      so lower-casing never moves a character in or out of it. */
  predicate Whitespace(ws: set<char>) {
    forall c :: c in ws ==> !IsLetter(c)
  }

  lemma RuntimeSpacesAreWhitespace()
    ensures Whitespace(JsSpaces) && Whitespace(PySpaces)
  {
  }

  predicate AllSpace(ws: set<char>, s: string) {
    forall i :: 0 <= i < |s| ==> s[i] in ws
  }

  /** Neither starts nor ends with whitespace. */
  predicate Stripped(ws: set<char>, s: string) {
    s == [] || (s[0] !in ws && s[|s| - 1] !in ws)
  }

  /** Length of the longest all-whitespace prefix. */
  function LeadingSpaces(ws: set<char>, s: string): (n: nat)
    ensures n <= |s|
    ensures forall i :: 0 <= i < n ==> s[i] in ws
    ensures n < |s| ==> s[n] !in ws
  {
    if |s| > 0 && s[0] in ws then 1 + LeadingSpaces(ws, s[1..]) else 0
  }

  /** Length of the longest all-whitespace suffix. */
  function TrailingSpaces(ws: set<char>, s: string): (n: nat)
    ensures n <= |s|
    ensures forall i :: |s| - n <= i < |s| ==> s[i] in ws
    ensures n < |s| ==> s[|s| - 1 - n] !in ws
  {
    if |s| > 0 && s[|s| - 1] in ws then 1 + TrailingSpaces(ws, s[..|s| - 1]) else 0
  }

  /** `s.trim()` (Js) or `s.strip()` (Py): removes whitespace at both ends. */
  function Trim(ws: set<char>, s: string): (r: string)
    ensures Stripped(ws, r)
    ensures |r| <= |s|
  {
    var t := s[LeadingSpaces(ws, s)..];
    t[..|t| - TrailingSpaces(ws, t)]
  }

  /** Any string is leading whitespace, its trimmed form, then trailing
      whitespace. */
  lemma TrimSplit(ws: set<char>, s: string) returns (pre: string, suf: string)
    ensures AllSpace(ws, pre) && AllSpace(ws, suf)
    ensures s == pre + Trim(ws, s) + suf
  {
    var a := LeadingSpaces(ws, s);
    var t := s[a..];
    var b := TrailingSpaces(ws, t);
    var c := |s| - b;
    pre := s[..a];
    suf := t[|t| - b..];
    LeadingIsSpace(ws, s);
    TrailingIsSpace(ws, t);
    assert suf == s[c..];
    assert Trim(ws, s) == t[..|t| - b] == s[a..c];
    Split3(s, a, c);
  }

  lemma Split3(s: string, a: nat, c: nat)
    requires a <= c <= |s|
    ensures s == s[..a] + s[a..c] + s[c..]
  {
  }

  lemma LeadingIsSpace(ws: set<char>, s: string)
    ensures AllSpace(ws, s[..LeadingSpaces(ws, s)])
  {
    var pre := s[..LeadingSpaces(ws, s)];
    forall i | 0 <= i < |pre| ensures pre[i] in ws {
      assert pre[i] == s[i];
    }
  }

  lemma TrailingIsSpace(ws: set<char>, t: string)
    ensures AllSpace(ws, t[|t| - TrailingSpaces(ws, t)..])
  {
    var b := TrailingSpaces(ws, t);
    var suf := t[|t| - b..];
    forall i | 0 <= i < |suf| ensures suf[i] in ws {
      assert suf[i] == t[|t| - b + i];
    }
  }

  lemma {:induction false} LeadingOfPadded(ws: set<char>, a: string, m: string)
    requires AllSpace(ws, a)
    requires m == [] || m[0] !in ws
    ensures LeadingSpaces(ws, a + m) == |a|
    decreases |a|
  {
    if |a| > 0 {
      assert (a + m)[1..] == a[1..] + m;
      LeadingOfPadded(ws, a[1..], m);
    }
  }

  lemma {:induction false} TrailingOfPadded(ws: set<char>, m: string, b: string)
    requires AllSpace(ws, b)
    requires m == [] || m[|m| - 1] !in ws
    ensures TrailingSpaces(ws, m + b) == |b|
    decreases |b|
  {
    if |b| > 0 {
      assert (m + b)[..|m + b| - 1] == m + b[..|b| - 1];
      TrailingOfPadded(ws, m, b[..|b| - 1]);
    }
  }

  /** Trimming is characterised uniquely: whatever whitespace surrounds a
      stripped string is exactly what `Trim` removes. */
  lemma TrimOfPadded(ws: set<char>, a: string, m: string, b: string)
    requires AllSpace(ws, a) && AllSpace(ws, b) && Stripped(ws, m)
    ensures Trim(ws, a + m + b) == m
  {
    var s := a + m + b;
    if m == [] {
      assert AllSpace(ws, s);
      LeadingOfPadded(ws, s, []);
      assert s + [] == s;
    } else {
      assert s == a + (m + b);
      LeadingOfPadded(ws, a, m + b);
      var t := s[|a|..];
      assert t == m + b;
      TrailingOfPadded(ws, m, b);
      assert t[..|t| - |b|] == m;
    }
  }

  lemma TrimIdempotent(ws: set<char>, s: string)
    ensures Trim(ws, Trim(ws, s)) == Trim(ws, s)
  {
    var m := Trim(ws, s);
    TrimOfPadded(ws, [], m, []);
    assert [] + m + [] == m;
  }

  // ----- lower-casing ---------------------------------------------------

  function LowerChar(c: char): char {
    if 'A' <= c <= 'Z' then (c as int + 32) as char else c
  }

  predicate IsLower(s: string) {
    forall i :: 0 <= i < |s| ==> !('A' <= s[i] <= 'Z')
  }

  /** `toLowerCase()` / `lower()` on the ASCII range; other code points are
      kept as they are. */
  function Lower(s: string): (r: string)
    ensures |r| == |s|
    ensures forall i :: 0 <= i < |s| ==> r[i] == LowerChar(s[i])
    ensures IsLower(r)
  {
    seq(|s|, i requires 0 <= i < |s| => LowerChar(s[i]))
  }

  lemma LowerOfLower(s: string)
    requires IsLower(s)
    ensures Lower(s) == s
  {
  }

  lemma LowerAppend(a: string, b: string)
    ensures Lower(a + b) == Lower(a) + Lower(b)
  {
  }

  /** Lower-casing never turns whitespace into non-whitespace or back. */
  lemma LowerKeepsSpaces(ws: set<char>, s: string)
    requires Whitespace(ws)
    ensures AllSpace(ws, s) ==> AllSpace(ws, Lower(s))
    ensures Stripped(ws, s) ==> Stripped(ws, Lower(s))
  {
  }

  /** Trimming and lower-casing commute. */
  lemma TrimLowerCommute(ws: set<char>, s: string)
    requires Whitespace(ws)
    ensures Trim(ws, Lower(s)) == Lower(Trim(ws, s))
  {
    var pre, suf := TrimSplit(ws, s);
    var m := Trim(ws, s);
    LowerAppend(pre, m);
    LowerAppend(pre + m, suf);
    LowerKeepsSpaces(ws, pre);
    LowerKeepsSpaces(ws, m);
    LowerKeepsSpaces(ws, suf);
    TrimOfPadded(ws, Lower(pre), Lower(m), Lower(suf));
  }

  // ----- the label key --------------------------------------------------

  /** Trim, then lower-case: the key under which label names must be
      unique. */
  function Normalize(ws: set<char>, s: string): (r: string)
    ensures Whitespace(ws) ==> Stripped(ws, r)
    ensures IsLower(r)
    ensures |r| <= |s|
  {
    if Whitespace(ws) then LowerKeepsSpaces(ws, Trim(ws, s)); Lower(Trim(ws, s))
    else Lower(Trim(ws, s))
  }

  /** `name.trim().toLowerCase()` in the browser. */
  function JsNormalize(s: string): (r: string)
    ensures Stripped(JsSpaces, r) && IsLower(r)
  {
    RuntimeSpacesAreWhitespace();
    Normalize(JsSpaces, s)
  }

  /** `name.strip().lower()` on the server. */
  function PyNormalize(s: string): (r: string)
    ensures Stripped(PySpaces, r) && IsLower(r)
  {
    RuntimeSpacesAreWhitespace();
    Normalize(PySpaces, s)
  }

  /** The key of a padded stripped string is its lower-case form. */
  lemma NormalizeOfPadded(ws: set<char>, a: string, m: string, b: string)
    requires AllSpace(ws, a) && AllSpace(ws, b) && Stripped(ws, m)
    ensures Normalize(ws, a + m + b) == Lower(m)
  {
    TrimOfPadded(ws, a, m, b);
  }

  /** The key of a stripped string is its lower-case form. */
  lemma NormalizeOfStripped(ws: set<char>, s: string)
    requires Stripped(ws, s)
    ensures Normalize(ws, s) == Lower(s)
  {
    TrimOfStripped(ws, s);
  }

  /** Trimming leaves a stripped string as it is. */
  lemma TrimOfStripped(ws: set<char>, s: string)
    requires Stripped(ws, s)
    ensures Trim(ws, s) == s
  {
    assert LeadingSpaces(ws, s) == 0;
    assert s[0..] == s;
    assert TrailingSpaces(ws, s) == 0;
    assert s[..|s|] == s;
  }

  /** The client's key of a padded stripped string is its lower-case
      form. */
  lemma JsNormalizeOfPadded(a: string, m: string, b: string)
    requires AllSpace(JsSpaces, a) && AllSpace(JsSpaces, b) && Stripped(JsSpaces, m)
    ensures JsNormalize(a + m + b) == Lower(m)
  {
    NormalizeOfPadded(JsSpaces, a, m, b);
  }

  /** The server's key of a padded stripped string is its lower-case
      form. */
  lemma PyNormalizeOfPadded(a: string, m: string, b: string)
    requires AllSpace(PySpaces, a) && AllSpace(PySpaces, b) && Stripped(PySpaces, m)
    ensures PyNormalize(a + m + b) == Lower(m)
  {
    NormalizeOfPadded(PySpaces, a, m, b);
  }

  /** The server's key of a stripped string is its lower-case form. */
  lemma PyKeyOfStripped(s: string)
    requires Stripped(PySpaces, s)
    ensures PyNormalize(s) == Lower(s)
  {
    NormalizeOfStripped(PySpaces, s);
  }

  /** A stripped lower-case string is the client's key of itself. */
  lemma JsKeyOfKey(s: string)
    requires Stripped(JsSpaces, s) && IsLower(s)
    ensures JsNormalize(s) == s
  {
    NormalizeOfStripped(JsSpaces, s);
    LowerOfLower(s);
  }

  /** A stripped lower-case string is the server's key of itself. */
  lemma PyKeyOfKey(s: string)
    requires Stripped(PySpaces, s) && IsLower(s)
    ensures PyNormalize(s) == s
  {
    NormalizeOfStripped(PySpaces, s);
    LowerOfLower(s);
  }

  /** A key is its own key. */
  lemma NormalizeIdempotent(ws: set<char>, s: string)
    requires Whitespace(ws)
    ensures Normalize(ws, Normalize(ws, s)) == Normalize(ws, s)
  {
    var k := Normalize(ws, s);
    TrimOfPadded(ws, [], k, []);
    assert [] + k + [] == k;
    LowerOfLower(k);
  }

  /** Surrounding whitespace and letter case do not change the key. */
  lemma NormalizeIgnoresPaddingAndCase(ws: set<char>, a: string, s: string, b: string)
    requires Whitespace(ws)
    requires AllSpace(ws, a) && AllSpace(ws, b)
    ensures Normalize(ws, a + s + b) == Normalize(ws, s)
    ensures Normalize(ws, Lower(s)) == Normalize(ws, s)
  {
    TrimIgnoresPadding(ws, a, s, b);
    TrimLowerCommute(ws, s);
    LowerOfLower(Lower(Trim(ws, s)));
  }

  lemma AllSpaceAppend(ws: set<char>, a: string, b: string)
    requires AllSpace(ws, a) && AllSpace(ws, b)
    ensures AllSpace(ws, a + b)
  {
  }

  /** Surrounding whitespace does not change the trimmed form. */
  lemma TrimIgnoresPadding(ws: set<char>, a: string, s: string, b: string)
    requires AllSpace(ws, a) && AllSpace(ws, b)
    ensures Trim(ws, a + s + b) == Trim(ws, s)
  {
    var pre, suf := TrimSplit(ws, s);
    var m := Trim(ws, s);
    AllSpaceAppend(ws, a, pre);
    AllSpaceAppend(ws, suf, b);
    Regroup(a, pre, m, suf, b);
    TrimOfPadded(ws, a + pre, m, suf + b);
  }

  lemma Regroup(a: string, pre: string, m: string, suf: string, b: string)
    ensures a + (pre + m + suf) + b == (a + pre) + m + (suf + b)
  {
  }

  /** The trimmed name has the same key as the name the user typed. */
  lemma NormalizeOfTrim(ws: set<char>, s: string)
    ensures Normalize(ws, Trim(ws, s)) == Normalize(ws, s)
  {
    TrimIdempotent(ws, s);
  }

  /** Client and server compute the same key for any name in which the two
      runtimes agree on what is whitespace. */
  lemma ClientServerAgree(s: string)
    requires forall i :: 0 <= i < |s| ==> (s[i] in JsSpaces <==> s[i] in PySpaces)
    ensures JsNormalize(s) == PyNormalize(s)
  {
    var pre, suf := TrimSplit(JsSpaces, s);
    var m := Trim(JsSpaces, s);
    assert forall i :: 0 <= i < |pre| ==> pre[i] == s[i];
    assert forall i :: 0 <= i < |suf| ==> suf[i] == s[|pre| + |m| + i];
    assert m != [] ==> m[0] == s[|pre|] && m[|m| - 1] == s[|pre| + |m| - 1];
    TrimOfPadded(PySpaces, pre, m, suf);
  }

  lemma JsUnitSeparatorFacts()
    ensures 'a' !in JsSpaces && '\U{1F}' !in JsSpaces
  {
  }

  lemma PyUnitSeparatorFacts()
    ensures 'a' !in PySpaces && '\U{1F}' in PySpaces
  {
  }

  /** A two-character string whose ends are not whitespace is stripped. */
  lemma StrippedPair(ws: set<char>, x: char, y: char)
    requires x !in ws && y !in ws
    ensures Stripped(ws, [x, y])
  {
  }

  lemma JsKeepsUnitSeparator()
    ensures JsNormalize("a\U{1F}") == "a\U{1F}"
  {
    var s: string := ['a', '\U{1F}'];
    JsUnitSeparatorFacts();
    StrippedPair(JsSpaces, 'a', '\U{1F}');
    assert IsLower(s);
    JsKeyOfKey(s);
  }

  lemma PyStripsUnitSeparator()
    ensures PyNormalize("a\U{1F}") == "a"
  {
    var m: string := ['a'];
    var b: string := ['\U{1F}'];
    PyUnitSeparatorFacts();
    assert AllSpace(PySpaces, b);
    assert Stripped(PySpaces, m) && IsLower(m);
    PyNormalizeOfPadded([], m, b);
    assert [] + m + b == "a\U{1F}";
    LowerOfLower(m);
  }

  /** ... and they differ otherwise: a trailing U+001F is stripped by Python
      but kept by JavaScript, so the client's duplicate check can pass a
      name that the server then rejects as a duplicate. */
  lemma ClientServerDiffer()
    ensures JsNormalize("a\U{1F}") != PyNormalize("a\U{1F}")
  {
    JsKeepsUnitSeparator();
    PyStripsUnitSeparator();
    assert "a\U{1F}" != "a";
  }

  // ----- decimal rendering ----------------------------------------------

  predicate IsDigits(s: string) {
    forall i :: 0 <= i < |s| ==> '0' <= s[i] <= '9'
  }

  function DigitChar(d: nat): (c: char)
    requires d < 10
    ensures '0' <= c <= '9'
    ensures c as int - '0' as int == d
  {
    ('0' as int + d) as char
  }

  /** Template-literal rendering of a non-negative integer (`${n}`). */
  function NatToString(n: nat): (r: string)
    ensures |r| >= 1
    ensures IsDigits(r)
  {
    if n < 10 then [DigitChar(n)] else NatToString(n / 10) + [DigitChar(n % 10)]
  }

  /** The value of a decimal numeral. */
  function DigitsValue(s: string): nat
    requires IsDigits(s)
  {
    if s == [] then 0 else 10 * DigitsValue(s[..|s| - 1]) + (s[|s| - 1] as int - '0' as int)
  }

  lemma {:induction false} NatToStringRoundTrip(n: nat)
    ensures DigitsValue(NatToString(n)) == n
  {
    var r := NatToString(n);
    if n >= 10 {
      NatToStringRoundTrip(n / 10);
      assert r[..|r| - 1] == NatToString(n / 10);
    }
  }

  predicate IsHexDigit(c: char) {
    ('0' <= c <= '9') || ('a' <= c <= 'f') || ('A' <= c <= 'F')
  }
}

=== FILE: wrappers.dfy ===
/** Small failure-compatible wrappers shared by the whole model. */
module Wrappers {

  /** A value that may be missing: a JavaScript `undefined`/`null` or a
      Python `None`. */
  datatype Option<+T> = None | Some(value: T) {

    /** The wrapped value, or `default` when it is missing (`x ?? default`). */
    function GetOr(default: T): (r: T)
      ensures Some? ==> r == value
      ensures None? ==> r == default
    {
      match this
      case Some(v) => v
      case None => default
    }
  }

  /** Either a value or an error. */
  datatype Result<+R, +E> = Success(value: R) | Failure(error: E)
}
